=== FILE: README.md ===
# ietf-system change application, modelled in Dafny

This project models the part of the sysrepo system plugin (`src/general.c`) that turns changes of the `ietf-system` configuration into operating-system state:

- the module-change callback, which walks the changed nodes of a transaction and routes every changed leaf;
- `set_config_value`, which sends a leaf to the hostname, contact, location, timezone or NTP applier;
- `set_ntp`, which switches the time service with a fallback unit name and sends server leaves to the server list;
- `set_contact_info` and `get_contact_info`, which rewrite and read the GECOS field of `root` in `/etc/passwd` through a temporary file and a backup;
- `set_timezone` and `get_timezone_name`, which manage the `/etc/localtime` symbolic link;
- `system_xpath_get`, which trims leaf-list paths;
- the RPC callback, which handles set-current-datetime, restart and shutdown.

The system calls, shell commands and datastore calls that change something or can fail in a way the code acts on are primitives (`Os.Prim`). The calls that only read state (`access`, `readlink`, `getpwent`) are modelled as reads of the state that cannot fail. `fclose` and `close` are left out. Whether a primitive succeeds is decided by an outcome oracle `o(k, p)`, which is passed in as a parameter and asked about the k-th primitive of a run. The state must also allow the primitive: `unlink` needs the link, `rename` needs its source, and `symlink` fails when the link exists. A failed primitive changes nothing. Every attempt is appended to the world's trace. The world also counts how many times regenerating the NTP configuration was attempted, so "saved at most once" can be stated.

set_contact_info's fail path renames the backup back only when `/etc/passwd` is absent (see Findings). The model makes this restore rule a parameter (`Passwd.RestoreRule`), from `Passwd.SetContactInfo` up to `ChangeCallback.ModuleChange`. `WhenPasswdAbsent` is the program as written; `WhenNotInstalled` is the corrected rule.

Modules follow the source:
- `CStrings` holds the C string routines used.
- `Accounts` holds the passwd records and the GECOS rewrite and scan.
- `Os` holds the primitives and the state.
- `XPaths` holds the path constants and path parsing.
- `Ntp`, `Passwd`, `Timezone`, `Config`, `ChangeCallback` and `Rpc` hold the operations.

Two behaviours of the code that are easy to miss:
- Deleting the timezone-name leaf fails the transaction when `unlink` fails (lines 500-510), although the failed `access` before it is only logged.
- Deleting an NTP leaf is routed to `set_ntp` but does not set the flag that regenerates the NTP configuration (lines 414-431).

## Model

| member | source | states |
|---|---|---|
| Os.Effect | src/general.c:696-727 | a successful primitive never changes which other paths exist; file and link primitives change only the passwd files or the link; commands, datastore calls, the clock and sync change no modelled state |
| Os.FileEffect | src/general.c:696-727 | open(O_CREAT) leaves /etc/passwd present and never truncates an existing one; renames move the contents and replace the destination; sendfile makes /etc/passwd a copy of the temporary file; steps on the temporary file leave /etc/passwd and its backup alone |
| XPaths.Classify | src/general.c:462-524 | each of the five leaf routes is taken exactly when the path equals that leaf's path; the NTP route is taken exactly when the path starts with the NTP container path |
| XPaths.LeafPathsOutsideNtp | src/general.c:44-54 | none of the exactly matched leaf paths lies under the NTP container, so the prefix test cannot capture them |
| XPaths.TrimLeafList | src/general.c:819-838 | the result is a prefix of the path ending just before its last '[', or the whole path when there is no '[' |
| XPaths.TrimLeafListOfInstance | src/general.c:823-834 | cutting a value predicate off a leaf-list instance path gives back the leaf-list path |
| XPaths.NodeName | src/general.c:589 | the node name contains no '/'; it is the whole path when the path has no '/', and otherwise exactly the text after the last '/' |
| XPaths.ServerKey | src/general.c:590 | a key is found exactly when the path starts with the server list node and `[name='` and a quote follows; the key is the quote-free text up to that quote |
| XPaths.ServerLeafPathRoundTrip | src/general.c:584-590 | building a server leaf path (address and port inside the udp container) and parsing it again recovers the server name and the leaf name, and the path is routed to NTP |
| CStrings.LastIndexOf | src/general.c:828 | the position found holds the character and nothing after it does; none exactly when the character is absent |
| CStrings.UpToNulOfWritten | src/general.c:753 | a NUL-free value written at the front of a zeroed buffer reads back as that value |
| Accounts.RewriteGecos | src/general.c:678-690 | same number of records, same order and names; the records of root get the new GECOS and every other record is untouched |
| Accounts.RewriteTwice | src/general.c:678-690 | rewriting twice equals rewriting once with the second value |
| Accounts.RewriteWithCurrentIsIdentity | src/general.c:678-690 | rewriting with the value root already holds changes nothing |
| Accounts.ScanGecos | src/general.c:751-755 | without a root record the buffer is left as it was |
| Accounts.GetContactInfo | src/general.c:741-758 | failure exactly when the database yields no record; the buffer is unchanged when no record is root's |
| Accounts.ScanFindsContact | src/general.c:751-755 | when every root record holds v, the scan leaves v at the front of the buffer |
| Accounts.ContactRoundTrip | src/general.c:656-758 | after the contact is rewritten to v, get_contact_info reads v back, given v is ASCII with no NUL, ':' or newline, is shorter than MAX_GECOS_LEN, and root exists |
| Ntp.EnableService | src/general.c:537-552 | ntpd is enabled; only if that fails is ntp enabled; the result fails only when both fail; the state is unchanged |
| Ntp.DisableService | src/general.c:553-583 | stop then disable ntpd; a failed stop moves on to ntp; the exact command sequence and result for each outcome |
| Ntp.SetEnabled | src/general.c:534-583 | "true" enables, "false" disables, any other value issues no command and succeeds |
| Ntp.RunAll | src/general.c:553-583 | commands run in order and the run succeeds exactly when every command does; a failure leaves in the trace the commands up to and including the first failing one; the state is unchanged |
| Ntp.EnableIsFallback | src/general.c:537-552 | enabling equals the ordered fallback over the two unit names |
| Ntp.DisableIsFallback | src/general.c:553-583 | disabling equals the ordered fallback, where a failed disable after a successful stop does not fall back |
| Ntp.Fallback | src/general.c:537-583 | the ordered fallback rule: when every candidate's first command fails, the result fails with all first commands in the trace; when the first candidate starts, the result is whether its follow-ups all succeed; the state is unchanged |
| Ntp.FlagArgument | src/general.c:620-648 | the keyword is passed exactly when the value is "true", and the empty string otherwise |
| Ntp.ServerCall | src/general.c:589-649 | each of the six server leaves maps to its server-list call, keyed by the path's server name; other leaves map to no call |
| Ntp.SetNtp | src/general.c:531-653 | the enabled leaf switches the service; a server leaf makes at most one server-list call, whose result is the result; other NTP paths do nothing; the configuration is never saved here |
| Ntp.ServerLeavesShareKey | src/general.c:589-604 | the name leaf creates the entry and the address leaf targets it by the same key |
| Ntp.FlagLeavesPassKeywordOnlyForTrue | src/general.c:620-648 | iburst and prefer pass their keyword for "true" and clear it for any other value |
| Passwd.Recover | src/general.c:723-727 | the backup is renamed back exactly when the restore rule says so; otherwise nothing changes |
| Passwd.WriteRecords | src/general.c:673-690 | on success the temporary file holds every record in order with root's GECOS rewritten; only the temporary file changes; when every file primitive succeeds the loop succeeds |
| Passwd.CopyAndClean | src/general.c:711-721 | success installs the temporary file's records; as written, a failed copy leaves /etc/passwd empty; a failed remove keeps the new records; when every file primitive succeeds it writes |
| Passwd.Recreate | src/general.c:707-716 | while /etc/passwd is absent a failure restores the backup or leaves the database in it; success installs the new records and keeps the backup; when every file primitive succeeds it writes |
| Passwd.Reinstate | src/general.c:700-716 | the same guarantees from opening the temporary file onward; when every file primitive succeeds it writes |
| Passwd.Install | src/general.c:696-716 | a failed backup rename changes nothing; the same guarantees apply after it; when every file primitive succeeds it writes |
| Passwd.WriteAndInstall | src/general.c:673-727 | from the created temporary file on: success installs the rewrite and keeps the backup; a failed write or backup rename leaves the database; a failed copy leaves the database or an empty /etc/passwd, and always the empty one as written; when every file primitive succeeds it writes |
| Passwd.SetContactInfo | src/general.c:656-739 | success installs the rewritten database and keeps the old one as backup; each failure step leaves the database kept, restored, in the backup or, after a failed copy, beside an empty /etc/passwd; an absent or empty database fails before the backup rename, and with /etc/passwd absent a leftover backup is renamed into its place; under the corrected rule no failure short of the final remove loses the database; when every file primitive succeeds, a non-empty database is rewritten |
| Passwd.WriteRecordsComplete | src/general.c:678-690 | when every write succeeds, the putpwent loop completes |
| Passwd.InstallWhenCopyFails | src/general.c:696-727 | when only sendfile fails, /etc/passwd ends empty as written and holds the database under the corrected rule |
| Passwd.SetContactInfoSucceeds | src/general.c:656-739 | when every call succeeds, set_contact_info writes and /etc/passwd holds the rewritten database |
| Passwd.CopyFailureEmptiesPasswd | src/general.c:711-727 | when only sendfile fails, set_contact_info as written leaves /etc/passwd empty; the corrected rule leaves it as it was |
| Timezone.ZonePath | src/general.c:764-769 | the link target is the zoneinfo directory followed by at most TIMEZONE_NAME_LEN characters of the name |
| Timezone.SetTimezone | src/general.c:760-794 | a missing zone file fails with no change; success exactly when the unlink (if access finds the link) and the symlink succeed; success points the link at the zone; a dangling link blocks the set |
| Timezone.DeleteTimezone | src/general.c:500-510 | the unlink is attempted whatever access says, and its failure is the result |
| Timezone.NameFromLink | src/general.c:796-817 | a name is returned exactly when the link exists and its first bound characters start with the zoneinfo directory; directory plus name is that prefix |
| Timezone.GetTimezoneName | src/general.c:796-817 | a name comes back exactly when the first 41 characters of the link target start with the zoneinfo directory; the name is the rest of those 41 characters, so at most 21 characters long |
| Timezone.GetTimezoneNameFixed | src/general.c:796-817 | with room for the directory and TIMEZONE_NAME_LEN characters, the name is the rest of the link target's first 62 characters after the directory, at most 42 characters long |
| Timezone.ReadBackOfZonePath | src/general.c:766-814 | a link set_timezone created reads back as the name cut to the read bound minus the directory length |
| Timezone.SetThenGet | src/general.c:760-817 | as written, a successful set reads back as the first 21 characters of the name, so the round trip holds only for names of at most 21 characters |
| Timezone.LongZoneNameIsTruncated | src/general.c:798-814 | "America/Argentina/Buenos_Aires" is set and reads back as "America/Argentina/Bue" |
| Timezone.SetThenGetFixed | src/general.c:760-817 | with the corrected read bound, every name of at most TIMEZONE_NAME_LEN characters reads back unchanged |
| Config.HostnameFor | src/general.c:462-473 | deletion sets "none"; any other operation uses a prefix of the value of exactly HOST_NAME_MAX characters when the value is longer, and the whole value when it fits |
| Config.ApplyHostname | src/general.c:462-473 | one sethostname; only the hostname can change |
| Config.ApplyLocation | src/general.c:486-497 | one location write ("none" on deletion); only the location can change |
| Config.ApplyContact | src/general.c:474-485 | success installs the database rewritten with the value ("" on deletion); an absent or empty database fails; a failure leaves the database, leaves it only in the backup, installs the rewrite, or leaves /etc/passwd empty with the database in the backup; only the corrected restore rule rules the empty file out; it succeeds exactly when set_contact_info writes, so always when every file primitive succeeds and the database is non-empty |
| Config.ApplyTimezone | src/general.c:499-516 | deletion removes the link, with failure exactly when the unlink fails; a successful set points the link at an existing zone file; any other operation is exactly set_timezone, with its success condition |
| Config.SetConfigValue | src/general.c:458-529 | each path is sent to its applier; the UTC offset and unknown paths succeed without effect; nothing saves the NTP configuration |
| Config.RouteChangesOnlyItsPart | src/general.c:458-529 | every route changes only its own part of the system state |
| Config.ContactLeafRoundTrip | src/general.c:474-485 | an ASCII contact without ':' or newline written through the leaf reads back through get_contact_info, and a deleted contact reads back empty, whenever root exists and the write succeeded |
| Config.ApplyContactSucceeds | src/general.c:474-485 | when every call succeeds, a contact change through the leaf applies |
| Config.ContactCopyFailure | src/general.c:474-485 | a contact change whose sendfile fails reports failure and, as written, leaves /etc/passwd empty; under the corrected rule /etc/passwd is as it was |
| Config.TimezoneLeafRoundTrip | src/general.c:511-516 | a zone written through the leaf reads back through the corrected get_timezone_name |
| ChangeCallback.NodePath | src/general.c:819-844 | leaf-list paths are cut before their last '['; every other path is kept |
| ChangeCallback.LeafValue | src/general.c:403-410 | the node's value, else the schema default, else "" |
| ChangeCallback.ApplyChange | src/general.c:412-431 | only leaves that are not moved reach set_config_value; everything else is skipped with success |
| ChangeCallback.Run | src/general.c:400-434 | no NTP save happens inside the loop; the NTP flag is set only if some change creates or modifies an NTP leaf, and after a clean run exactly then |
| ChangeCallback.RunAppend | src/general.c:400-434 | running two batches in sequence equals running them together; a failure ends the run |
| ChangeCallback.LaterChangesIgnored | src/general.c:414-420 | after a failed change, later changes are not applied |
| ChangeCallback.UnroutedChangesDoNothing | src/general.c:412-433 | changes that are never routed leave the world as it was |
| ChangeCallback.RunStep | src/general.c:412-431 | one iteration of the loop after a clean prefix of changes yields the run over that prefix plus the next change |
| ChangeCallback.ProcessChanges | src/general.c:400-434 | the iterative change loop computes exactly the recursive definition |
| ChangeCallback.ModuleChange | src/general.c:361-456 | an abort fails with no effect; done copies running to startup; update and enabled do nothing; a change event whose changes cannot be fetched fails with nothing done; otherwise the system is left as the change loop left it, nothing undone, and the callback succeeds exactly when every change applied and any needed NTP save succeeded; the NTP configuration is saved at most once, exactly when every change applied and one set the flag |
| ChangeCallback.NtpDeletionsDoNotSave | src/general.c:424-447 | a transaction of deletions never regenerates the NTP configuration |
| Rpc.SetCurrentDatetime | src/general.c:992-1017 | set the clock, store the value and apply; success exactly when all three succeed; a failed clock set or store issues nothing after it |
| Rpc.SyncAndRun | src/general.c:1019-1027 | sync then the shutdown command, whatever either returns |
| Rpc.RpcCallback | src/general.c:987-1037 | set-current-datetime needs exactly one input; restart and shutdown always report success; any other path fails with no effect |

## Left out

- set_datetime, get_datetime_info, get_os_info and the state-data callback: they are clock parsing and read-only queries outside this core. set_datetime is the primitive `SetDatetime`, whose outcome comes from the oracle.
- set_location's file I/O: it is the primitive `WriteLocation` with a one-value store.
- Plugin init, cleanup, load_data and the startup datastore check: these are framework wiring.
- The NTP server list (`utils/ntp/server_list.h`) and save_ntp_config are not part of this model. Their calls are primitives whose success is up to the oracle, so "unknown server name" failures are not distinguished.
- libyang and sysrepo path helpers are modelled on the path shapes libyang prints: `[name='…']` keys and a '/' before each node.
- `access()` (lines 502, 726, 772, 775) and `readlink()` (line 802) are reads of the modelled state that cannot fail. `getpwent()`/`endpwent()` (lines 671-690, 745-755) read the modelled database, under the assumptions stated for Accounts.GetContactInfo and Passwd.SetContactInfo below. `fclose()` and `close()` are not modelled.
- Strings are NUL-free C strings, one character per byte. A getpwent error in mid-stream is treated as the end of the database.
- HOST_NAME_MAX is taken as 64, its Linux value.
- sendfile is modelled as copying the whole file or failing. Short writes are not modelled.
- Closing file descriptors, errno and logging are not modelled.
- Passwd.WriteRecords: each putpwent is treated as a write whose failure shows at once. The records actually go through a stdio buffer, and the result of `fclose(tmp_pwf)` (line 692) is ignored. So a write error that only appears when the buffer is flushed is not modelled. With /tmp full, the program can then install a short or empty /etc/passwd and report success.
- Concurrency between callbacks and crash consistency between steps are not modelled.
- Accounts.GetContactInfo: models a fresh enumeration of the accounts, as at its only call in load_data at plugin start. get_contact_info never calls setpwent(), and set_contact_info leaves its getpwent() stream at the end without endpwent(). So in one process, a read after a write starts at the end and fails; the round-trip lemmas do not cover that.
- Passwd.SetContactInfo: assumes the name service reads accounts from /etc/passwd only, and that the file holds only well-formed records. getpwent() enumerates every NSS source, so accounts from another source would be written into the new /etc/passwd. nss_files skips comments, blank lines and unparsable lines, so the rewrite drops them; the model's record sequence cannot represent them.
- Accounts.ContactRoundTrip: a Dafny character stands for one byte of the C string, because MAX_GECOS_LEN, strnlen and strncpy count bytes. The lemma therefore requires an ASCII value. The UTF-8 encoding of other characters is not modelled; the program cuts such a value at 100 bytes.
- Config.ContactLeafRoundTrip: requires an ASCII value for the same reason.
- Accounts.ContactRoundTrip: putpwent's encoding of a record as a line of ':'-separated fields is not modelled, so values containing ':' or a newline are excluded: glibc writes them as spaces, other C libraries split the record. Values of MAX_GECOS_LEN characters or more are excluded too. For such a value, strncpy leaves the caller's buffer without a terminating NUL.
- Passwd.SetContactInfo: the corrected restore property is stated for oracles under which renaming back never fails. That rename's own result is ignored by the code.

## Findings

| source | as written | input that shows it | evidently intended | confidence | as-written member | corrected member |
|---|---|---|---|---|---|---|
| src/general.c:796-817 | readlink reads at most `sizeof(buf)-1` = 41 characters of the link, and 20 of them are the zoneinfo directory, so at most 21 characters of the name come back | set "America/Argentina/Buenos_Aires", then read: "America/Argentina/Bue" | read up to ZONE_DIR_LEN + TIMEZONE_NAME_LEN characters, so every name set_timezone writes reads back whole (the caller's buffer needs one more byte); the only call, in load_data (lines 316-332), is commented out, so the truncation is latent in this tree | not executed; high | Timezone.LongZoneNameIsTruncated | Timezone.SetThenGetFixed |
| src/general.c:707-727 | the fail path renames the backup back only when access() does not find /etc/passwd, but the open with O_CREAT has already re-created it | sendfile fails after the open: /etc/passwd is left empty and the database sits in /etc/passwd.bak | rename the backup back when copying into /etc/passwd failed, as the comment on the fail path says | not executed; high | Passwd.CopyFailureEmptiesPasswd | Passwd.SetContactInfo |

=== FILE: accounts.dfy ===
/** Records of the system account database (/etc/passwd) as the core sees
    them through getpwent/putpwent, and the two pure computations on them:
    the contact rewrite done by set_contact_info and the contact read done
    by get_contact_info (src/general.c:656-758). */
module Accounts {
  import opened CStrings

  /** One passwd line; every field except `gecos` is carried through
      untouched. */
  datatype Account = Account(
    name: string,
    password: string,
    uid: nat,
    gid: nat,
    gecos: string,
    home: string,
    shell: string)

  /** CONTACT_USERNAME: the account whose GECOS field holds the contact. */
  const ContactUser: string := "root"

  /** MAX_GECOS_LEN: the size of the buffer get_contact_info fills. */
  const MaxGecosLen: nat := 100

  /** The record putpwent writes for `a` while the contact is set to `value`. */
  function WithContact(a: Account, value: string): Account {
    if a.name == ContactUser then a.(gecos := value) else a
  }

  /** The database written to the temporary file: every record read, in
      order, with the contact account's GECOS replaced. */
  function RewriteGecos(db: seq<Account>, value: string): (r: seq<Account>)
    ensures |r| == |db|
    ensures forall i :: 0 <= i < |db| ==> r[i].name == db[i].name
    ensures forall i :: 0 <= i < |db| && db[i].name != ContactUser ==> r[i] == db[i]
    ensures forall i :: 0 <= i < |db| && db[i].name == ContactUser ==>
              r[i] == db[i].(gecos := value)
  {
    if |db| == 0 then []
    else [WithContact(db[0], value)] + RewriteGecos(db[1..], value)
  }

  /** Rewriting twice is rewriting with the second value: the later contact
      wins and nothing else accumulates. */
  lemma {:induction false} RewriteTwice(db: seq<Account>, v1: string, v2: string)
    ensures RewriteGecos(RewriteGecos(db, v1), v2) == RewriteGecos(db, v2)
  {
    var a := RewriteGecos(RewriteGecos(db, v1), v2);
    var b := RewriteGecos(db, v2);
    assert |a| == |b|;
    forall i | 0 <= i < |a| ensures a[i] == b[i] {
    }
  }

  /** Rewriting with the contact every contact account already holds changes
      nothing. */
  lemma {:induction false} RewriteWithCurrentIsIdentity(db: seq<Account>, value: string)
    requires forall i :: 0 <= i < |db| && db[i].name == ContactUser ==> db[i].gecos == value
    ensures RewriteGecos(db, value) == db
  {
    var r := RewriteGecos(db, value);
    forall i | 0 <= i < |db| ensures r[i] == db[i] {
    }
  }

  /** strncpy(buf, src, n) with n <= strlen(src): the first `n` characters
      of `src` overwrite the front of `buf` and no NUL is written. */
  function Overwrite(buf: seq<char>, src: string, n: nat): (r: seq<char>)
    requires n <= |src| && n <= |buf|
    ensures |r| == |buf|
    ensures r[..n] == src[..n] && r[n..] == buf[n..]
  {
    src[..n] + buf[n..]
  }

  /** The scan loop of get_contact_info: each contact record in turn copies
      at most MAX_GECOS_LEN characters of its GECOS over the buffer. */
  function ScanGecos(db: seq<Account>, buf: seq<char>): (r: seq<char>)
    requires |buf| == MaxGecosLen
    ensures |r| == MaxGecosLen
    ensures (forall i :: 0 <= i < |db| ==> db[i].name != ContactUser) ==> r == buf
    decreases |db|
  {
    if |db| == 0 then buf
    else
      var next := if db[0].name == ContactUser
        then Overwrite(buf, db[0].gecos, |Take(db[0].gecos, MaxGecosLen)|)
        else buf;
      ScanGecos(db[1..], next)
  }

  /** What get_contact_info reports: failure (-1) when the database yields no
      record at all, otherwise success with the buffer as the scan left it. */
  datatype ContactRead = NoRecords | Read(buffer: seq<char>)

  function GetContactInfo(db: seq<Account>, buf: seq<char>): (r: ContactRead)
    requires |buf| == MaxGecosLen
    ensures r.NoRecords? <==> |db| == 0
    ensures r.Read? ==> |r.buffer| == MaxGecosLen
    ensures (forall i :: 0 <= i < |db| ==> db[i].name != ContactUser) && |db| > 0 ==>
              r == Read(buf)
  {
    if |db| == 0 then NoRecords else Read(ScanGecos(db, buf))
  }

  /** When every contact record holds `v` and there is at least one, the scan
      leaves `v` at the front of the buffer and the rest of it as it was. */
  lemma {:induction false} ScanFindsContact(db: seq<Account>, buf: seq<char>, v: string)
    requires |buf| == MaxGecosLen && |v| <= MaxGecosLen
    requires forall i :: 0 <= i < |db| && db[i].name == ContactUser ==> db[i].gecos == v
    ensures (exists i :: 0 <= i < |db| && db[i].name == ContactUser) ==>
              ScanGecos(db, buf) == v + buf[|v|..]
    ensures (forall i :: 0 <= i < |db| ==> db[i].name != ContactUser) ==>
              ScanGecos(db, buf) == buf
    decreases |db|
  {
    if |db| > 0 {
      var next := if db[0].name == ContactUser
        then Overwrite(buf, db[0].gecos, |Take(db[0].gecos, MaxGecosLen)|)
        else buf;
      ScanFindsContact(db[1..], next, v);
      if db[0].name == ContactUser {
        assert next == v + buf[|v|..];
        assert next[|v|..] == buf[|v|..];
        assert next == v + next[|v|..];
        if exists i :: 0 <= i < |db[1..]| && db[1..][i].name == ContactUser {
        } else {
          assert ScanGecos(db[1..], next) == next;
        }
      } else {
        if exists i :: 0 <= i < |db| && db[i].name == ContactUser {
          var i :| 0 <= i < |db| && db[i].name == ContactUser;
          assert db[1..][i - 1].name == ContactUser;
        }
      }
    }
  }

  /** Set-then-get round trip: after the contact is rewritten to a NUL-free
      value shorter than MAX_GECOS_LEN, reading it into the zeroed buffer
      load_data passes yields that value, provided the contact account
      exists (at index `i`). */
  lemma ContactRoundTrip(db: seq<Account>, v: string, i: nat)
    requires '\0' !in v && ':' !in v && '\n' !in v && |v| < MaxGecosLen
    requires forall i :: 0 <= i < |v| ==> v[i] < 128 as char
    requires i < |db| && db[i].name == ContactUser
    ensures GetContactInfo(RewriteGecos(db, v), Zeros(MaxGecosLen)).Read?
    ensures UpToNul(GetContactInfo(RewriteGecos(db, v), Zeros(MaxGecosLen)).buffer) == v
  {
    var db' := RewriteGecos(db, v);
    assert db'[i].name == ContactUser;
    ScanFindsContact(db', Zeros(MaxGecosLen), v);
    var z := Zeros(MaxGecosLen)[|v|..];
    assert z[0] == '\0';
    UpToNulOfWritten(v, z);
  }
}

=== FILE: change.dfy ===
/** system_module_change_cb (src/general.c:361-456) and system_xpath_get
    (src/general.c:819-844): the callback the datastore calls for every
    event on the ietf-system configuration. On a change event it walks the
    changed nodes in order, hands every changed leaf to set_config_value,
    stops at the first failure, and regenerates the NTP configuration once
    at the end when an NTP leaf was created or modified. */
module ChangeCallback {
  import opened Wrappers
  import opened Os
  import opened XPaths
  import opened Passwd
  import opened Config

  /** The schema node type of a changed node. */
  datatype NodeKind = Leaf | LeafList | OtherNode

  /** One element of the change iterator: the operation, the node's type,
      the node's path as the data tree prints it, its value and the schema
      default of a leaf (None for NULL). */
  datatype NodeChange = NodeChange(
    op: Operation,
    kind: NodeKind,
    path: string,
    value: Option<string>,
    schemaDefault: Option<string>)

  /** system_xpath_get: the path of a leaf-list entry loses its trailing
      value predicate; every other path is used as printed. */
  function NodePath(c: NodeChange): (r: string)
    ensures r <= c.path
    ensures c.kind != LeafList ==> r == c.path
    ensures c.kind == LeafList && '[' !in c.path ==> r == c.path
    ensures c.kind == LeafList && '[' in c.path ==> |r| < |c.path| && c.path[|r|] == '[' && '[' !in c.path[|r| + 1..]
  {
    if c.kind == LeafList then TrimLeafList(c.path) else c.path
  }

  /** The value handed on: the node's own value, else the schema default,
      else the empty string. */
  function LeafValue(c: NodeChange): (r: string)
    ensures c.value.Some? ==> r == c.value.value
    ensures c.value.None? && c.schemaDefault.Some? ==> r == c.schemaDefault.value
    ensures c.value.None? && c.schemaDefault.None? ==> r == ""
  {
    c.value.ValueOr(c.schemaDefault.ValueOr(""))
  }

  /** Only leaves that were created, modified or deleted reach
      set_config_value; leaf-lists, containers, lists and moves are skipped. */
  predicate Routed(c: NodeChange) {
    c.kind == Leaf && c.op != Moved
  }

  /** A created or modified leaf under the NTP container asks for the NTP
      configuration to be regenerated; a deletion does not. */
  predicate SetsNtpFlag(c: NodeChange) {
    c.kind == Leaf && (c.op == Created || c.op == Modified) && NtpPath <= NodePath(c)
  }

  /** One change of the loop. */
  function ApplyChange(w: World, o: Outcomes, rule: RestoreRule, c: NodeChange): (r: Step)
    ensures LaterNoSave(w, r.world)
    ensures !Routed(c) ==> r == Step(true, w)
    ensures Routed(c) ==> r == SetConfigValue(w, o, c.path, LeafValue(c), c.op, rule)
  {
    if Routed(c) then SetConfigValue(w, o, NodePath(c), LeafValue(c), c.op, rule)
    else Step(true, w)
  }

  /** The state of the change loop after some changes: whether every one was
      applied, the world, and whether the NTP flag is set. */
  datatype RunResult = RunResult(ok: bool, world: World, ntp: bool)

  /** The change loop over `cs`, defined on the last change so that it
      follows the loop one iteration at a time. */
  function Run(w: World, o: Outcomes, rule: RestoreRule, cs: seq<NodeChange>): (r: RunResult)
    ensures LaterNoSave(w, r.world)
    ensures r.ntp ==> exists i :: 0 <= i < |cs| && SetsNtpFlag(cs[i])
    ensures r.ok ==> (r.ntp <==> exists i :: 0 <= i < |cs| && SetsNtpFlag(cs[i]))
    decreases |cs|
  {
    if |cs| == 0 then RunResult(true, w, false)
    else
      var prefix := cs[..|cs| - 1];
      var prev := Run(w, o, rule, prefix);
      assert forall i :: 0 <= i < |prefix| ==> prefix[i] == cs[i];
      if !prev.ok then prev
      else
        var c := cs[|cs| - 1];
        var s := ApplyChange(prev.world, o, rule, c);
        assert c == cs[|cs| - 1];
        RunResult(s.ok, s.world, prev.ntp || (s.ok && SetsNtpFlag(c)))
  }

  /** Running two batches of changes one after the other is running them
      together: once a change fails, later changes are not looked at, and the
      NTP flag collects over both. */
  lemma {:induction false} RunAppend(w: World, o: Outcomes, rule: RestoreRule, a: seq<NodeChange>, b: seq<NodeChange>)
    ensures var ra := Run(w, o, rule, a);
            var rb := Run(ra.world, o, rule, b);
            Run(w, o, rule, a + b) == if ra.ok then RunResult(rb.ok, rb.world, ra.ntp || rb.ntp) else ra
    decreases |b|
  {
    if |b| == 0 {
      assert a + b == a;
    } else {
      var b' := b[..|b| - 1];
      RunAppend(w, o, rule, a, b');
      assert (a + b)[..|a + b| - 1] == a + b';
      assert (a + b)[|a + b| - 1] == b[|b| - 1];
    }
  }

  /** Once a change fails, no later change is applied. */
  lemma LaterChangesIgnored(w: World, o: Outcomes, rule: RestoreRule, cs: seq<NodeChange>, more: seq<NodeChange>)
    requires !Run(w, o, rule, cs).ok
    ensures Run(w, o, rule, cs + more) == Run(w, o, rule, cs)
  {
    RunAppend(w, o, rule, cs, more);
  }

  /** Changes that are never routed leave the world exactly as it was. */
  lemma {:induction false} UnroutedChangesDoNothing(w: World, o: Outcomes, rule: RestoreRule, cs: seq<NodeChange>)
    requires forall i :: 0 <= i < |cs| ==> !Routed(cs[i])
    ensures Run(w, o, rule, cs) == RunResult(true, w, false)
    decreases |cs|
  {
    if |cs| > 0 {
      UnroutedChangesDoNothing(w, o, rule, cs[..|cs| - 1]);
    }
  }

  /** One more iteration of the change loop after a clean prefix: apply the
      next change and raise the NTP flag if it was applied and asks for it. */
  method RunStep(w: World, o: Outcomes, rule: RestoreRule, cs: seq<NodeChange>, i: nat, ok: bool, world: World, ntp: bool)
    returns (ok': bool, world': World, ntp': bool)
    requires i < |cs| && ok && RunResult(ok, world, ntp) == Run(w, o, rule, cs[..i])
    ensures RunResult(ok', world', ntp') == Run(w, o, rule, cs[..i + 1])
  {
    assert cs[..i + 1][..i] == cs[..i];
    var s := ApplyChange(world, o, rule, cs[i]);
    ok', world', ntp' := s.ok, s.world, ntp || (s.ok && SetsNtpFlag(cs[i]));
  }

  /** The change loop as the callback runs it, one change per iteration. */
  method ProcessChanges(w: World, o: Outcomes, rule: RestoreRule, cs: seq<NodeChange>) returns (ok: bool, world: World, ntp: bool)
    ensures RunResult(ok, world, ntp) == Run(w, o, rule, cs)
    ensures LaterNoSave(w, world)
    ensures ok ==> (ntp <==> exists i :: 0 <= i < |cs| && SetsNtpFlag(cs[i]))
  {
    ok, world, ntp := true, w, false;
    var i := 0;
    while i < |cs| && ok
      invariant 0 <= i <= |cs|
      invariant RunResult(ok, world, ntp) == Run(w, o, rule, cs[..i])
    {
      ok, world, ntp := RunStep(w, o, rule, cs, i, ok, world, ntp);
      i := i + 1;
    }
    if ok {
      assert cs[..i] == cs;
    } else {
      LaterChangesIgnored(w, o, rule, cs[..i], cs[i..]);
      assert cs[..i] + cs[i..] == cs;
    }
  }

  /** sr_event_t, as far as the callback looks at it. */
  datatype Event = Update | Change | Done | Abort | Enabled

  /** SR_ERR_OK or SR_ERR_CALLBACK_FAILED. */
  datatype Status = Ok | CallbackFailed

  datatype Reply = Reply(status: Status, world: World)

  /** What the callback is handed for a change event after the changes
      iterator was requested. */
  function AfterGetChanges(w: World): World {
    w.(trace := w.trace + [Repo(GetChanges)])
  }

  /** system_module_change_cb, with `rule` the restore rule set_contact_info
      follows (`WhenPasswdAbsent` as written). */
  function ModuleChange(w: World, o: Outcomes, rule: RestoreRule, event: Event, cs: seq<NodeChange>): (r: Reply)
    ensures w.trace <= r.world.trace
    ensures event == Abort ==> r == Reply(CallbackFailed, w)
    ensures event == Update || event == Enabled ==> r == Reply(Ok, w)
    ensures event == Done ==>
              && r.world == w.(trace := w.trace + [Repo(CopyRunningToStartup)])
              && (r.status == Ok <==> o(|w.trace|, Repo(CopyRunningToStartup)))
    // the NTP configuration is regenerated at most once, and exactly when the
    // changes were all applied and one of them created or modified an NTP leaf
    ensures r.world.saves <= w.saves + 1
    ensures r.world.saves == w.saves + 1 <==>
              && event == Change
              && o(|w.trace|, Repo(GetChanges))
              && Run(AfterGetChanges(w), o, rule, cs).ok
              && exists i :: 0 <= i < |cs| && SetsNtpFlag(cs[i])
    // success on a change event means every change was applied
    ensures event == Change && r.status == Ok ==>
              o(|w.trace|, Repo(GetChanges)) && Run(AfterGetChanges(w), o, rule, cs).ok
    // a change event whose changes cannot be fetched fails with nothing done
    ensures event == Change && !o(|w.trace|, Repo(GetChanges)) ==>
              r == Reply(CallbackFailed, AfterGetChanges(w))
    // otherwise the system is left as the change loop left it, failed changes
    // included (nothing applied earlier is undone), and the callback succeeds
    // exactly when every change applied and any NTP save it needed succeeded
    ensures event == Change && o(|w.trace|, Repo(GetChanges)) ==>
              var run := Run(AfterGetChanges(w), o, rule, cs);
              && r.world.state == run.world.state
              && (r.status == Ok <==> run.ok && (!run.ntp || o(|run.world.trace|, NtpSave)))
  {
    match event
    case Abort => Reply(CallbackFailed, w)
    case Done =>
      var c := Call(w, o, Repo(CopyRunningToStartup));
      Reply(if c.ok then Ok else CallbackFailed, c.world)
    case Change =>
      var g := Call(w, o, Repo(GetChanges));
      if !g.ok then Reply(CallbackFailed, g.world)
      else
        assert g.world == AfterGetChanges(w);
        var run := Run(g.world, o, rule, cs);
        if !run.ok then Reply(CallbackFailed, run.world)
        else if !run.ntp then Reply(Ok, run.world)
        else
          var s := Call(run.world, o, NtpSave);
          Reply(if s.ok then Ok else CallbackFailed, s.world)
    case _ => Reply(Ok, w)
  }

  /** Deleting NTP leaves reaches set_ntp for each of them but never
      regenerates the NTP configuration. */
  lemma NtpDeletionsDoNotSave(w: World, o: Outcomes, rule: RestoreRule, cs: seq<NodeChange>)
    requires forall i :: 0 <= i < |cs| ==> cs[i].op == Deleted
    ensures ModuleChange(w, o, rule, Change, cs).world.saves == w.saves
  {
  }
}

=== FILE: config.dfy ===
/** set_config_value (src/general.c:458-529): one changed leaf of the
    ietf-system configuration, routed by its path to the operation that
    applies it. Deleting a leaf applies a fixed replacement value. */
module Config {
  import opened Wrappers
  import opened CStrings
  import opened Accounts
  import opened Os
  import opened XPaths
  import opened Ntp
  import opened Passwd
  import opened Timezone

  /** sr_change_oper_t. */
  datatype Operation = Created | Modified | Deleted | Moved

  /** HOST_NAME_MAX on Linux: sethostname is given at most this many
      characters of the value. */
  const HostNameMax: nat := 64

  /** What a deleted hostname or location is replaced by. */
  const DeletedHostname: string := "none"
  const DeletedLocation: string := "none"

  /** The hostname sethostname receives. */
  function HostnameFor(value: string, op: Operation): (r: string)
    ensures op == Deleted ==> r == DeletedHostname
    ensures op != Deleted ==> r <= value && |r| <= HostNameMax
    ensures op != Deleted && |value| <= HostNameMax ==> r == value
    ensures op != Deleted && |value| > HostNameMax ==> |r| == HostNameMax
  {
    if op == Deleted then Take(DeletedHostname, HostNameMax) else Take(value, HostNameMax)
  }

  /** The GECOS text set_contact_info receives: deletion clears it. */
  function ContactFor(value: string, op: Operation): string {
    if op == Deleted then "" else value
  }

  /** The location set_location receives. */
  function LocationFor(value: string, op: Operation): string {
    if op == Deleted then DeletedLocation else value
  }

  /** A later world without a save in which only the hostname may differ. */
  predicate OnlyHostnameLater(w: World, w': World) {
    w.trace <= w'.trace && w' == w.(trace := w'.trace, state := w.state.(hostname := w'.state.hostname))
  }

  /** A later world without a save in which only the location may differ. */
  predicate OnlyLocationLater(w: World, w': World) {
    w.trace <= w'.trace && w' == w.(trace := w'.trace, state := w.state.(location := w'.state.location))
  }

  /** The hostname leaf: one sethostname call. */
  function ApplyHostname(w: World, o: Outcomes, value: string, op: Operation): (r: Step)
    ensures OnlyHostnameLater(w, r.world)
    ensures r.world.trace == w.trace + [SetHostname(HostnameFor(value, op))]
    ensures r.ok <==> o(|w.trace|, SetHostname(HostnameFor(value, op)))
    ensures r.world.state.hostname == if r.ok then HostnameFor(value, op) else w.state.hostname
  {
    Call(w, o, SetHostname(HostnameFor(value, op)))
  }

  /** The location leaf: one write of the location store. */
  function ApplyLocation(w: World, o: Outcomes, value: string, op: Operation): (r: Step)
    ensures OnlyLocationLater(w, r.world)
    ensures r.world.trace == w.trace + [WriteLocation(LocationFor(value, op))]
    ensures r.ok <==> o(|w.trace|, WriteLocation(LocationFor(value, op)))
    ensures r.world.state.location == if r.ok then LocationFor(value, op) else w.state.location
  {
    Call(w, o, WriteLocation(LocationFor(value, op)))
  }

  /** The contact leaf: set_contact_info under the restore rule `rule`
      (`WhenPasswdAbsent` is the program as written), successful only when
      it wrote the database back. */
  function ApplyContact(w: World, o: Outcomes, value: string, op: Operation, rule: RestoreRule): (r: Step)
    ensures OnlyFilesLater(w, r.world)
    ensures var f, f' := w.state.files, r.world.state.files;
            r.ok ==> f.passwd.Some? && f' == Files(Some(RewriteGecos(f.passwd.value, ContactFor(value, op))), f.passwd, None)
    ensures w.state.files.passwd.None? || w.state.files.passwd == Some([]) ==> !r.ok
    ensures r.ok <==> SetContactInfo(w, o, ContactFor(value, op), rule).outcome == Written
    // when every file primitive succeeds, an existing database is rewritten
    ensures FileOpsWork(o) && w.state.files.passwd.Some? && w.state.files.passwd.value != [] ==> r.ok
    // a failure leaves the database in place, leaves it only in the backup,
    // installs the rewrite without removing the temporary file, or, after a
    // failed copy, leaves /etc/passwd empty with the database in the backup
    ensures var f, f' := w.state.files, r.world.state.files;
            !r.ok && f.passwd.Some? ==>
              || f'.passwd == f.passwd
              || (f'.passwd.None? && f'.passwdBak == f.passwd)
              || (f'.passwd == Some(RewriteGecos(f.passwd.value, ContactFor(value, op))) && f'.passwdBak == f.passwd)
              || (f'.passwd == Some([]) && f'.passwdBak == f.passwd)
    // only the corrected rule rules the empty /etc/passwd out
    ensures !r.ok && RenameBackWorks(o) && rule == WhenNotInstalled && w.state.files.passwd.Some? ==>
              || r.world.state.files.passwd == w.state.files.passwd
              || r.world.state.files.passwd == Some(RewriteGecos(w.state.files.passwd.value, ContactFor(value, op)))
  {
    var c := SetContactInfo(w, o, ContactFor(value, op), rule);
    Step(c.outcome == Written, c.world)
  }

  /** The timezone-name leaf: deletion unlinks /etc/localtime, anything else
      sets the zone. */
  function ApplyTimezone(w: World, o: Outcomes, value: string, op: Operation): (r: Step)
    ensures OnlyLinkLater(w, r.world)
    ensures op == Deleted ==> r.world.state.localtime == if r.ok then None else w.state.localtime
    ensures op == Deleted ==> (r.ok <==> w.state.localtime.Some? && o(|w.trace|, Link(UnlinkLocaltime)))
    ensures op != Deleted && r.ok ==> r.world.state.localtime == Some(ZonePath(value)) && ZonePath(value) in w.state.existing
    ensures op != Deleted ==> r == SetTimezone(w, o, value)
  {
    if op == Deleted then DeleteTimezone(w, o) else SetTimezone(w, o, value)
  }

  /** set_config_value: the route of the path decides which single part of
      the system is changed; the UTC offset and paths outside the model are
      accepted without effect. No route regenerates the NTP configuration. */
  function SetConfigValue(w: World, o: Outcomes, xpath: string, value: string, op: Operation, rule: RestoreRule): (r: Step)
    ensures LaterNoSave(w, r.world)
    ensures xpath == HostnamePath ==> r == ApplyHostname(w, o, value, op)
    ensures xpath == ContactPath ==> r == ApplyContact(w, o, value, op, rule)
    ensures xpath == LocationPath ==> r == ApplyLocation(w, o, value, op)
    ensures xpath == TimezoneNamePath ==> r == ApplyTimezone(w, o, value, op)
    ensures NtpPath <= xpath ==> r == SetNtp(w, o, xpath, value)
    ensures xpath == TimezoneOffsetPath || Classify(xpath) == Unrouted ==> r == Step(true, w)
  {
    match Classify(xpath)
    case HostnameLeaf => ApplyHostname(w, o, value, op)
    case ContactLeaf => ApplyContact(w, o, value, op, rule)
    case LocationLeaf => ApplyLocation(w, o, value, op)
    case TimezoneNameLeaf => ApplyTimezone(w, o, value, op)
    case TimezoneOffsetLeaf => Step(true, w)
    case NtpSubtree => SetNtp(w, o, xpath, value)
    case Unrouted => Step(true, w)
  }

  /** Every route changes at most its own part of the state. */
  lemma RouteChangesOnlyItsPart(w: World, o: Outcomes, xpath: string, value: string, op: Operation, rule: RestoreRule)
    ensures var r := SetConfigValue(w, o, xpath, value, op, rule);
            && (xpath == HostnamePath ==> r.world.state == w.state.(hostname := r.world.state.hostname))
            && (xpath == ContactPath ==> r.world.state == w.state.(files := r.world.state.files))
            && (xpath == LocationPath ==> r.world.state == w.state.(location := r.world.state.location))
            && (xpath == TimezoneNamePath ==> r.world.state == w.state.(localtime := r.world.state.localtime))
            && (Classify(xpath) in {TimezoneOffsetLeaf, NtpSubtree, Unrouted} ==> r.world.state == w.state)
  {
    var r := SetConfigValue(w, o, xpath, value, op, rule);
    match Classify(xpath)
    case HostnameLeaf =>
    case ContactLeaf =>
    case LocationLeaf =>
    case TimezoneNameLeaf =>
    case TimezoneOffsetLeaf =>
    case NtpSubtree =>
    case Unrouted =>
  }

  /** The contact written through the contact leaf is what get_contact_info
      reads back, and a deleted contact reads back empty, whenever the
      contact account (at index `i`) exists and the write succeeded. */
  lemma ContactLeafRoundTrip(w: World, o: Outcomes, value: string, op: Operation, rule: RestoreRule, i: nat)
    requires '\0' !in value && ':' !in value && '\n' !in value && |value| < MaxGecosLen
    requires forall k :: 0 <= k < |value| ==> value[k] < 128 as char
    requires w.state.files.passwd.Some?
    requires i < |w.state.files.passwd.value| && w.state.files.passwd.value[i].name == ContactUser
    ensures var r := SetConfigValue(w, o, ContactPath, value, op, rule);
            r.ok ==>
              && r.world.state.files.passwd.Some?
              && GetContactInfo(r.world.state.files.passwd.value, Zeros(MaxGecosLen)).Read?
              && UpToNul(GetContactInfo(r.world.state.files.passwd.value, Zeros(MaxGecosLen)).buffer)
                   == (if op == Deleted then "" else value)
  {
    ContactRoundTrip(w.state.files.passwd.value, ContactFor(value, op), i);
  }

  /** The zone written through the timezone-name leaf reads back through the
      corrected get_timezone_name whenever the name fits TIMEZONE_NAME_LEN. */
  lemma TimezoneLeafRoundTrip(w: World, o: Outcomes, value: string, op: Operation, rule: RestoreRule)
    requires op != Deleted && |value| <= TimezoneNameLen
    requires SetConfigValue(w, o, TimezoneNamePath, value, op, rule).ok
    ensures GetTimezoneNameFixed(SetConfigValue(w, o, TimezoneNamePath, value, op, rule).world.state) == Some(value)
  {
    SetThenGetFixed(w, o, value);
  }

  /** As written, a contact change whose sendfile fails leaves /etc/passwd
      empty; under the corrected rule it is left as it was. */
  lemma ContactCopyFailure(w: World, value: string, op: Operation, rule: RestoreRule)
    requires w.state.files.passwd.Some? && w.state.files.passwd.value != []
    ensures var r := SetConfigValue(w, CopyFails, ContactPath, value, op, rule);
            && !r.ok
            && r.world.state.files.passwd == (if rule == WhenPasswdAbsent then Some([]) else w.state.files.passwd)
  {
    CopyFailureEmptiesPasswd(w, ContactFor(value, op), rule);
  }

  /** With every call succeeding, a contact change through the leaf applies. */
  lemma ApplyContactSucceeds(w: World, value: string, op: Operation, rule: RestoreRule)
    requires w.state.files.passwd.Some? && w.state.files.passwd.value != []
    ensures SetConfigValue(w, AllOk, ContactPath, value, op, rule).ok
  {
    SetContactInfoSucceeds(w, ContactFor(value, op), rule);
  }
}

=== FILE: cstrings.dfy ===
/** The few C string routines the core relies on, stated on Dafny strings.
    A C string is modelled by its characters before the terminating NUL, so
    `strcmp(a, b) == 0` is `a == b` and `strncmp(s, p, strlen(p)) == 0` is
    the prefix test `p <= s`. */
module CStrings {
  import opened Wrappers

  /** The characters `strnlen(s, n)` counts: all of `s`, or its first `n`
      characters when it is longer. */
  function Take(s: string, n: nat): (r: string)
    ensures r <= s
    ensures |r| == if |s| <= n then |s| else n
  {
    if |s| <= n then s else s[..n]
  }

  /** `strrchr(s, c)`: the position of the last `c` in `s`, or none. */
  function LastIndexOf(s: string, c: char): (r: Option<nat>)
    ensures r.None? <==> c !in s
    ensures r.Some? ==> r.value < |s| && s[r.value] == c && c !in s[r.value + 1..]
  {
    if |s| == 0 then None
    else if s[|s| - 1] == c then Some(|s| - 1)
    else
      var r := LastIndexOf(s[..|s| - 1], c);
      assert s[..|s| - 1] + [s[|s| - 1]] == s;
      if r.Some? then
        assert s[r.value + 1..] == s[..|s| - 1][r.value + 1..] + [s[|s| - 1]];
        r
      else r
  }

  /** `strchr(s, c)`: the position of the first `c` in `s`, or none. */
  function IndexOf(s: string, c: char): (r: Option<nat>)
    ensures r.None? <==> c !in s
    ensures r.Some? ==> r.value < |s| && s[r.value] == c && c !in s[..r.value]
  {
    if |s| == 0 then None
    else if s[0] == c then Some(0)
    else
      var r := IndexOf(s[1..], c);
      assert s == [s[0]] + s[1..];
      if r.Some? then
        assert s[..r.value + 1] == [s[0]] + s[1..][..r.value];
        Some(r.value + 1)
      else None
  }

  /** The C string held in a character buffer: everything before its first
      NUL, or the whole buffer when it holds none. */
  function UpToNul(buf: seq<char>): (r: string)
    ensures r <= buf
    ensures '\0' !in r
    ensures |r| < |buf| ==> buf[|r|] == '\0'
  {
    if |buf| == 0 || buf[0] == '\0' then []
    else [buf[0]] + UpToNul(buf[1..])
  }

  /** A buffer of `n` NUL characters, as left by `char buf[n] = {0}`. */
  function Zeros(n: nat): (r: seq<char>)
    ensures |r| == n
    ensures forall i :: 0 <= i < n ==> r[i] == '\0'
  {
    seq(n, _ => '\0')
  }

  /** Reading back a NUL-free string written at the front of a buffer whose
      next character is NUL gives exactly that string. */
  lemma {:induction false} UpToNulOfWritten(v: string, rest: seq<char>)
    requires '\0' !in v
    requires |rest| > 0 && rest[0] == '\0'
    ensures UpToNul(v + rest) == v
  {
    if |v| == 0 {
      assert v + rest == rest;
    } else {
      assert (v + rest)[1..] == v[1..] + rest;
      UpToNulOfWritten(v[1..], rest);
    }
  }
}

=== FILE: ntp.dfy ===
/** set_ntp (src/general.c:531-653): switching the time service on and off
    through systemctl with a fallback unit name, and turning a changed leaf
    of an NTP server entry into one call on the server list. The server list
    itself is opaque: its calls are primitives that may fail. */
module Ntp {
  import opened Wrappers
  import opened Os
  import opened XPaths

  const EnableNtpd: string := "systemctl enable --now ntpd"
  const EnableNtp: string := "systemctl enable --now ntp"
  const StopNtpd: string := "systemctl stop ntpd"
  const StopNtp: string := "systemctl stop ntp"
  const DisableNtpd: string := "systemctl disable ntpd"
  const DisableNtp: string := "systemctl disable ntp"

  /** "true": enable ntpd; only when that fails, enable the Debian unit name
      ntp. The result is failure only when both fail. */
  function EnableService(w: World, o: Outcomes): (r: Step)
    ensures SameStateLater(w, r.world)
    ensures var n := |w.trace|;
            if o(n, Shell(EnableNtpd))
            then r.ok && r.world.trace == w.trace + [Shell(EnableNtpd)]
            else r.world.trace == w.trace + [Shell(EnableNtpd)] + [Shell(EnableNtp)] &&
                 (r.ok <==> o(n + 1, Shell(EnableNtp)))
  {
    var e := Call(w, o, Shell(EnableNtpd));
    if e.ok then Step(true, e.world)
    else
      var e' := Call(e.world, o, Shell(EnableNtp));
      Step(e'.ok, e'.world)
  }

  /** "false": stop then disable ntpd; when stopping ntpd fails, stop then
      disable ntp instead. Any failure on the path taken is a failure. */
  function DisableService(w: World, o: Outcomes): (r: Step)
    ensures SameStateLater(w, r.world)
    ensures var n := |w.trace|;
            o(n, Shell(StopNtpd)) ==>
              r.world.trace == w.trace + [Shell(StopNtpd)] + [Shell(DisableNtpd)] &&
              (r.ok <==> o(n + 1, Shell(DisableNtpd)))
    ensures var n := |w.trace|;
            !o(n, Shell(StopNtpd)) && !o(n + 1, Shell(StopNtp)) ==>
              !r.ok && r.world.trace == w.trace + [Shell(StopNtpd)] + [Shell(StopNtp)]
    ensures var n := |w.trace|;
            !o(n, Shell(StopNtpd)) && o(n + 1, Shell(StopNtp)) ==>
              r.world.trace == w.trace + [Shell(StopNtpd)] + [Shell(StopNtp)] + [Shell(DisableNtp)] &&
              (r.ok <==> o(n + 2, Shell(DisableNtp)))
  {
    var s := Call(w, o, Shell(StopNtpd));
    if !s.ok then
      var s' := Call(s.world, o, Shell(StopNtp));
      if !s'.ok then Step(false, s'.world)
      else Call(s'.world, o, Shell(DisableNtp))
    else Call(s.world, o, Shell(DisableNtpd))
  }

  /** The `enabled` leaf: "true" enables, "false" disables, any other value
      issues no command and succeeds. */
  function SetEnabled(w: World, o: Outcomes, value: string): (r: Step)
    ensures SameStateLater(w, r.world)
    ensures value == "true" ==> r == EnableService(w, o)
    ensures value == "false" ==> r == DisableService(w, o)
    ensures value != "true" && value != "false" ==> r == Step(true, w)
  {
    if value == "true" then EnableService(w, o)
    else if value == "false" then DisableService(w, o)
    else Step(true, w)
  }

  /** One candidate way to reach a service state: a first command whose
      failure moves on to the next candidate, then follow-up commands that
      must all succeed. */
  datatype Attempt = Attempt(first: string, followUps: seq<string>)

  /** The trace entries of running `commands` in order. */
  function Shells(commands: seq<string>): (r: seq<Prim>)
    ensures |r| == |commands|
    decreases |commands|
  {
    if |commands| == 0 then [] else [Shell(commands[0])] + Shells(commands[1..])
  }

  /** The `i`-th trace entry of running `commands` is its `i`-th command. */
  lemma {:induction false} ShellsAt(commands: seq<string>, i: nat)
    requires i < |commands|
    ensures Shells(commands)[i] == Shell(commands[i])
    decreases |commands|
  {
    if i > 0 {
      ShellsAt(commands[1..], i - 1);
    }
  }

  /** Whether every command of `commands`, issued from trace position `n`
      on, succeeds. */
  predicate AllSucceed(o: Outcomes, n: nat, commands: seq<string>)
    decreases |commands|
  {
    |commands| == 0 || (o(n, Shell(commands[0])) && AllSucceed(o, n + 1, commands[1..]))
  }

  /** Runs commands in order, stopping at the first failure: it succeeds
      exactly when every command does, and a failure leaves in the trace the
      commands up to and including the failing one, all of which but that
      last one succeeded. */
  function RunAll(w: World, o: Outcomes, commands: seq<string>): (r: Step)
    ensures SameStateLater(w, r.world)
    ensures r.ok <==> AllSucceed(o, |w.trace|, commands)
    ensures r.ok ==> r.world.trace == w.trace + Shells(commands)
    ensures !r.ok ==>
              var k := |r.world.trace| - |w.trace| - 1;
              && 0 <= k < |commands|
              && r.world.trace == w.trace + Shells(commands[..k + 1])
              && AllSucceed(o, |w.trace|, commands[..k])
              && !o(|w.trace| + k, Shell(commands[k]))
    decreases |commands|
  {
    if |commands| == 0 then Step(true, w)
    else
      var c := Call(w, o, Shell(commands[0]));
      if !c.ok then
        assert commands[..1][1..] == [];
        c
      else
        var r := RunAll(c.world, o, commands[1..]);
        if r.ok then r
        else
          var k := |r.world.trace| - |c.world.trace| - 1;
          assert commands[..k + 2][1..] == commands[1..][..k + 1];
          assert commands[..k + 1][1..] == commands[1..][..k];
          r
  }

  /** Whether no first command of `attempts`, issued from trace position `n`
      on, succeeds. */
  predicate NoneStarts(o: Outcomes, n: nat, attempts: seq<Attempt>)
    decreases |attempts|
  {
    |attempts| == 0 || (!o(n, Shell(attempts[0].first)) && NoneStarts(o, n + 1, attempts[1..]))
  }

  /** The first commands of `attempts`, in order. */
  function Firsts(attempts: seq<Attempt>): (r: seq<string>)
    ensures |r| == |attempts|
    ensures forall i :: 0 <= i < |attempts| ==> r[i] == attempts[i].first
  {
    seq(|attempts|, i requires 0 <= i < |attempts| => attempts[i].first)
  }

  /** The ordered fallback rule: try each candidate's first command in
      order; the first that succeeds decides, through its follow-ups, the
      result; the operation fails, with every first command in the trace,
      when every first command fails. */
  function Fallback(w: World, o: Outcomes, attempts: seq<Attempt>): (r: Step)
    ensures SameStateLater(w, r.world)
    ensures NoneStarts(o, |w.trace|, attempts) ==>
              !r.ok && r.world.trace == w.trace + Shells(Firsts(attempts))
    ensures |attempts| > 0 && o(|w.trace|, Shell(attempts[0].first)) ==>
              (r.ok <==> AllSucceed(o, |w.trace| + 1, attempts[0].followUps))
    decreases |attempts|
  {
    if |attempts| == 0 then Step(false, w)
    else
      var f := Call(w, o, Shell(attempts[0].first));
      if f.ok then RunAll(f.world, o, attempts[0].followUps)
      else
        var r := Fallback(f.world, o, attempts[1..]);
        assert Firsts(attempts) == [attempts[0].first] + Firsts(attempts[1..]);
        r
  }

  /** The candidates for each value of the `enabled` leaf. */
  function EnablePlan(): seq<Attempt> {
    [Attempt(EnableNtpd, []), Attempt(EnableNtp, [])]
  }

  function DisablePlan(): seq<Attempt> {
    [Attempt(StopNtpd, [DisableNtpd]), Attempt(StopNtp, [DisableNtp])]
  }

  /** Enabling, as the nested branches of set_ntp write it, is the ordered
      fallback over the two unit names. */
  lemma {:induction false} EnableIsFallback(w: World, o: Outcomes)
    ensures EnableService(w, o) == Fallback(w, o, EnablePlan())
  {
    var plan := EnablePlan();
    var f := Call(w, o, Shell(EnableNtpd));
    assert plan[0].first == EnableNtpd && plan[0].followUps == [];
    assert plan[1..] == [Attempt(EnableNtp, [])];
    if !f.ok {
      assert plan[1..][1..] == [];
    }
  }

  /** Disabling, as the nested branches of set_ntp write it, is the ordered
      fallback: a failed stop of ntpd moves on to ntp, a failed
      disable after a successful stop does not. */
  lemma {:induction false} DisableIsFallback(w: World, o: Outcomes)
    ensures DisableService(w, o) == Fallback(w, o, DisablePlan())
  {
    var plan := DisablePlan();
    var f := Call(w, o, Shell(StopNtpd));
    assert plan[0] == Attempt(StopNtpd, [DisableNtpd]);
    if f.ok {
      var d := Call(f.world, o, Shell(DisableNtpd));
      assert [DisableNtpd][1..] == [];
      assert RunAll(f.world, o, [DisableNtpd]) == d;
    } else {
      var rest := plan[1..];
      assert rest == [Attempt(StopNtp, [DisableNtp])];
      var g := Call(f.world, o, Shell(StopNtp));
      if g.ok {
        var d := Call(g.world, o, Shell(DisableNtp));
        assert [DisableNtp][1..] == [];
        assert RunAll(g.world, o, [DisableNtp]) == d;
      } else {
        assert rest[1..] == [];
        assert Fallback(g.world, o, rest[1..]) == Step(false, g.world);
      }
      assert Fallback(f.world, o, rest) == DisableService(w, o);
    }
  }

  /** The flag value set_ntp passes for an iburst or prefer leaf: the keyword
      for "true", the empty string for anything else. */
  function FlagArgument(value: string, keyword: string): (r: string)
    ensures r == keyword <==> value == "true" || keyword == ""
    ensures r == "" <==> value != "true" || keyword == ""
  {
    if value == "true" then keyword else ""
  }

  /** The server-list call a changed leaf below the server list turns into,
      by the leaf's name; none for other leaves. `name` creates the entry
      from the value, every other leaf addresses the entry by the key in the
      path. */
  function ServerCall(xpath: string, value: string): (r: Option<Prim>)
    ensures var leaf := NodeName(xpath);
            r.None? <==> leaf !in {"name", "address", "port", "association-type", "iburst", "prefer"}
    ensures NodeName(xpath) == "name" ==> r == Some(Ntp(AddServer(value)))
    ensures NodeName(xpath) == "address" ==> r == Some(Ntp(SetAddress(ServerKey(xpath), value)))
    ensures NodeName(xpath) == "port" ==> r == Some(Ntp(SetPort(ServerKey(xpath), value)))
    ensures NodeName(xpath) == "association-type" ==> r == Some(Ntp(SetAssocType(ServerKey(xpath), value)))
    ensures NodeName(xpath) == "iburst" ==>
              r == Some(Ntp(SetIburst(ServerKey(xpath), if value == "true" then "iburst" else "")))
    ensures NodeName(xpath) == "prefer" ==>
              r == Some(Ntp(SetPrefer(ServerKey(xpath), if value == "true" then "prefer" else "")))
  {
    var leaf := NodeName(xpath);
    var key := ServerKey(xpath);
    if leaf == "name" then Some(Ntp(AddServer(value)))
    else if leaf == "address" then Some(Ntp(SetAddress(key, value)))
    else if leaf == "port" then Some(Ntp(SetPort(key, value)))
    else if leaf == "association-type" then Some(Ntp(SetAssocType(key, value)))
    else if leaf == "iburst" then Some(Ntp(SetIburst(key, FlagArgument(value, "iburst"))))
    else if leaf == "prefer" then Some(Ntp(SetPrefer(key, FlagArgument(value, "prefer"))))
    else None
  }

  /** set_ntp: the `enabled` leaf switches the service, a leaf below the
      server list becomes at most one server-list call whose failure is the
      result, and any other NTP path is accepted without effect. Nothing but
      the trace changes and the configuration file is not written here. */
  function SetNtp(w: World, o: Outcomes, xpath: string, value: string): (r: Step)
    ensures SameStateLater(w, r.world)
    ensures xpath == NtpEnabledPath ==> r == SetEnabled(w, o, value)
    ensures xpath != NtpEnabledPath && NtpServerPath <= xpath && ServerCall(xpath, value).None? ==>
              r == Step(true, w)
    ensures xpath != NtpEnabledPath && NtpServerPath <= xpath && ServerCall(xpath, value).Some? ==>
              var p := ServerCall(xpath, value).value;
              r.world.trace == w.trace + [p] && (r.ok <==> o(|w.trace|, p))
    ensures xpath != NtpEnabledPath && !(NtpServerPath <= xpath) ==> r == Step(true, w)
  {
    if xpath == NtpEnabledPath then SetEnabled(w, o, value)
    else if NtpServerPath <= xpath then
      var call := ServerCall(xpath, value);
      if call.None? then Step(true, w)
      else
        assert call.value != NtpSave;
        Call(w, o, call.value)
    else Step(true, w)
  }

  /** A server's leaves reach the server list under the server's own name:
      `name` creates it and `address` targets it by the same key. */
  lemma ServerLeavesShareKey(name: string, address: string)
    requires '\'' !in name
    ensures ServerCall(ServerLeafPath(name, "name"), name) == Some(Ntp(AddServer(name)))
    ensures ServerCall(ServerLeafPath(name, "address"), address) == Some(Ntp(SetAddress(Some(name), address)))
  {
    ServerLeafPathRoundTrip(name, "name");
    ServerLeafPathRoundTrip(name, "address");
  }

  /** iburst and prefer pass their keyword exactly when the value is "true":
      "false", "" or any other spelling clears the flag. */
  lemma FlagLeavesPassKeywordOnlyForTrue(name: string, value: string)
    requires '\'' !in name
    ensures ServerCall(ServerLeafPath(name, "iburst"), value) ==
              Some(Ntp(SetIburst(Some(name), if value == "true" then "iburst" else "")))
    ensures ServerCall(ServerLeafPath(name, "prefer"), value) ==
              Some(Ntp(SetPrefer(Some(name), if value == "true" then "prefer" else "")))
  {
    ServerLeafPathRoundTrip(name, "iburst");
    ServerLeafPathRoundTrip(name, "prefer");
  }
}

=== FILE: os.dfy ===
/** The abstract operating system the plugin acts on. Every system call,
    shell command and framework call the core makes is a `Prim`; whether it
    succeeds is decided by an outcome oracle passed in by the caller (the
    k-th primitive of a run succeeds when `o(k, p)` holds and the system
    state allows it), and every attempt is recorded in `trace`. A failed
    primitive changes nothing but the trace. */
module Os {
  import opened Wrappers
  import opened Accounts

  datatype Prim =
    | Shell(command: string)           // system(3) running a shell command
    | SetHostname(hostname: string)    // sethostname(2)
    | WriteLocation(location: string)  // set_location: the one-value location store
    | Link(linkOp: LinkOp)             // the /etc/localtime symlink
    | File(fileOp: FileOp)             // the files set_contact_info works on
    | Ntp(ntpCall: NtpCall)            // the NTP server list
    | Repo(repoCall: RepoCall)         // the sysrepo datastore
    | SetDatetime(datetime: string)    // set_datetime: parse and clock_settime
    | Sync                             // sync(2)

  /** unlink("/etc/localtime") and symlink(target, "/etc/localtime"). */
  datatype LinkOp = UnlinkLocaltime | SymlinkLocaltime(target: string)

  /** The steps of set_contact_info on /tmp/tempfile, /etc/passwd and
      /etc/passwd.bak. */
  datatype FileOp =
    | CreateTemp                  // fopen(tmp, "w")
    | WriteTempRecord(account: Account)  // putpwent
    | RenamePasswdToBak           // rename(passwd, passwd.bak)
    | OpenTempRead                // open(tmp, O_RDONLY)
    | StatTemp                    // fstat
    | OpenPasswdCreate            // open(passwd, O_WRONLY | O_CREAT)
    | CopyTempToPasswd            // sendfile
    | RemoveTemp                  // remove(tmp)
    | RenameBakToPasswd           // rename(passwd.bak, passwd)

  /** The calls on the NTP server list (utils/ntp/server_list.h), whose
      internals are not modelled. A missing list key is None (NULL). */
  datatype NtpCall =
    | AddServer(name: string)
    | SetAddress(key: Option<string>, address: string)
    | SetPort(key: Option<string>, port: string)
    | SetAssocType(key: Option<string>, assocType: string)
    | SetIburst(key: Option<string>, iburst: string)
    | SetPrefer(key: Option<string>, prefer: string)
    | SaveConfig                  // save_ntp_config: regenerate ntp.conf

  /** sr_get_changes_iter, sr_copy_config(startup <- running),
      sr_set_item_str and sr_apply_changes. */
  datatype RepoCall =
    | GetChanges
    | CopyRunningToStartup
    | SetItem(path: string, value: string)
    | ApplyChanges

  /** The one primitive that regenerates the NTP configuration file. */
  const NtpSave: Prim := Ntp(SaveConfig)

  /** The outcome oracle: whether the primitive issued at a given position of
      the trace succeeds when the system state allows it. */
  type Outcomes = (nat, Prim) -> bool

  /** The three files set_contact_info works on, each None when absent. */
  datatype Files = Files(
    passwd: Option<seq<Account>>,     // /etc/passwd
    passwdBak: Option<seq<Account>>,  // /etc/passwd.bak
    tempFile: Option<seq<Account>>)   // /tmp/tempfile

  /** The operating-system state the core reads and changes. */
  datatype State = State(
    hostname: string,
    location: string,
    files: Files,
    localtime: Option<string>,        // target of the /etc/localtime symlink
    existing: set<string>)            // other paths access(F_OK) finds, e.g. zone files

  /** The state, every primitive attempted so far in order, and how many
      times regenerating the NTP configuration file has been attempted. */
  datatype World = World(state: State, trace: seq<Prim>, saves: nat)

  /** What the file system itself demands of a primitive, whatever the oracle
      says: unlink and rename need their source, symlink fails with EEXIST
      when the link is present, writes need an open temporary file. */
  predicate Possible(s: State, p: Prim) {
    match p
    case Link(op) => LinkPossible(s.localtime, op)
    case File(op) => FilePossible(s.files, op)
    case _ => true
  }

  predicate LinkPossible(link: Option<string>, op: LinkOp) {
    match op
    case UnlinkLocaltime => link.Some?
    case SymlinkLocaltime(_) => link.None?
  }

  predicate FilePossible(f: Files, op: FileOp) {
    match op
    case WriteTempRecord(_) => f.tempFile.Some?
    case RenamePasswdToBak => f.passwd.Some?
    case OpenTempRead => f.tempFile.Some?
    case CopyTempToPasswd => f.tempFile.Some? && f.passwd.Some?
    case RemoveTemp => f.tempFile.Some?
    case RenameBakToPasswd => f.passwdBak.Some?
    case _ => true
  }

  /** The state change a successful primitive makes. */
  function Effect(s: State, p: Prim): (r: State)
    requires Possible(s, p)
    ensures r.existing == s.existing
    ensures p.File? ==> r == s.(files := r.files)
    ensures p.Link? ==> r == s.(localtime := r.localtime)
    // commands, NTP server-list calls, datastore calls, the clock and sync
    // leave the modelled state alone
    ensures !p.SetHostname? && !p.WriteLocation? && !p.Link? && !p.File? ==> r == s
  {
    match p
    case SetHostname(h) => s.(hostname := h)
    case WriteLocation(l) => s.(location := l)
    case Link(op) => s.(localtime := LinkEffect(op))
    case File(op) => s.(files := FileEffect(s.files, op))
    case _ => s
  }

  /** The link target after a successful unlink or symlink. */
  function LinkEffect(op: LinkOp): Option<string> {
    match op
    case UnlinkLocaltime => None
    case SymlinkLocaltime(t) => Some(t)
  }

  /** open(O_WRONLY | O_CREAT) creates an empty /etc/passwd only when it is
      absent (there is no O_TRUNC); rename replaces its destination. */
  function FileEffect(f: Files, op: FileOp): (r: Files)
    requires FilePossible(f, op)
    // open(O_CREAT) leaves /etc/passwd present and never truncates it
    ensures op == OpenPasswdCreate ==> r.passwd.Some? && (f.passwd.Some? ==> r == f)
    // a rename moves the contents and replaces whatever was at the destination
    ensures op == RenamePasswdToBak ==> r == Files(None, f.passwd, f.tempFile)
    ensures op == RenameBakToPasswd ==> r == Files(f.passwdBak, None, f.tempFile)
    // sendfile makes /etc/passwd a copy of the temporary file
    ensures op == CopyTempToPasswd ==> r.passwd == f.tempFile && r.passwdBak == f.passwdBak
    // the steps on the temporary file leave /etc/passwd and its backup alone
    ensures op.CreateTemp? || op.WriteTempRecord? || op.OpenTempRead? || op.StatTemp? || op.RemoveTemp? ==>
              r.passwd == f.passwd && r.passwdBak == f.passwdBak
  {
    match op
    case CreateTemp => f.(tempFile := Some([]))
    case WriteTempRecord(a) => f.(tempFile := Some(f.tempFile.value + [a]))
    case RenamePasswdToBak => f.(passwdBak := f.passwd, passwd := None)
    case OpenPasswdCreate => if f.passwd.None? then f.(passwd := Some([])) else f
    case CopyTempToPasswd => f.(passwd := f.tempFile)
    case RemoveTemp => f.(tempFile := None)
    case RenameBakToPasswd => f.(passwd := f.passwdBak, passwdBak := None)
    case _ => f
  }

  datatype Step = Step(ok: bool, world: World)

  /** Attempts one primitive: it succeeds when the state allows it and the
      oracle says so, and only then changes the state. */
  function Call(w: World, o: Outcomes, p: Prim): (r: Step)
    ensures r.world.trace == w.trace + [p]
    ensures r.ok <==> Possible(w.state, p) && o(|w.trace|, p)
    ensures r.world.state == if r.ok then Effect(w.state, p) else w.state
    ensures r.world.saves == w.saves + (if p == NtpSave then 1 else 0)
  {
    var ok := Possible(w.state, p) && o(|w.trace|, p);
    var saves := w.saves + (if p == NtpSave then 1 else 0);
    Step(ok, World(if ok then Effect(w.state, p) else w.state, w.trace + [p], saves))
  }

  /** `w'` is a later world of `w`: its trace extends `w`'s and the NTP
      configuration has not been regenerated in between. */
  predicate LaterNoSave(w: World, w': World) {
    w.trace <= w'.trace && w'.saves == w.saves
  }

  /** A later world without a save in which only the passwd files may differ. */
  predicate OnlyFilesLater(w: World, w': World) {
    w.trace <= w'.trace && w' == w.(trace := w'.trace, state := w.state.(files := w'.state.files))
  }

  /** A later world without a save in which only the /etc/localtime link may
      differ. */
  predicate OnlyLinkLater(w: World, w': World) {
    w.trace <= w'.trace && w' == w.(trace := w'.trace, state := w.state.(localtime := w'.state.localtime))
  }

  /** A later world without a save and with the same state. */
  predicate SameStateLater(w: World, w': World) {
    w.trace <= w'.trace && w' == w.(trace := w'.trace)
  }
}

=== FILE: passwd.dfy ===
/** set_contact_info (src/general.c:656-739) as a machine over three files:
    /etc/passwd, its backup /etc/passwd.bak and the temporary copy
    /tmp/tempfile. Records are streamed into the temporary file with the
    contact rewritten, the database is renamed to the backup, the temporary
    file is copied into a freshly created /etc/passwd and then removed. On
    any failure the code renames the backup back only when /etc/passwd is
    absent at that moment, so a failed copy into the re-created file leaves
    it empty; the restore rule is a parameter so that the corrected rule can
    be stated beside the one as written. */
module Passwd {
  import opened Wrappers
  import opened Accounts
  import opened Os

  /** The step of set_contact_info that failed. */
  datatype PasswdStep =
    | OpenTemp         // fopen(CONTACT_TEMP_FILE, "w")
    | ReadFirst        // the first getpwent() found no record
    | WriteRecord      // putpwent into the temporary file
    | Backup           // rename(PASSWD_FILE, PASSWD_BAK_FILE)
    | OpenTempForRead  // open(CONTACT_TEMP_FILE, O_RDONLY)
    | StatTempFile     // fstat of the temporary file
    | CreatePasswd     // open(PASSWD_FILE, O_WRONLY | O_CREAT)
    | CopyTemp         // sendfile into /etc/passwd
    | RemoveTempFile   // remove(CONTACT_TEMP_FILE)

  /** Steps at which /etc/passwd has not been moved yet. */
  predicate BeforeBackup(step: PasswdStep) {
    step == OpenTemp || step == ReadFirst || step == WriteRecord || step == Backup
  }

  /** Steps after the backup and before /etc/passwd is created again. */
  predicate WhilePasswdAbsent(step: PasswdStep) {
    step == OpenTempForRead || step == StatTempFile || step == CreatePasswd
  }

  /** When the `fail:` path renames the backup back. */
  datatype RestoreRule =
    | WhenPasswdAbsent  // only when access() does not find /etc/passwd
    | WhenNotInstalled  // also when the copy into the re-created /etc/passwd failed

  /** Whether the failure at `step`, with /etc/passwd present or not, renames
      the backup back. */
  predicate Restores(rule: RestoreRule, step: PasswdStep, passwdPresent: bool) {
    !passwdPresent || (rule == WhenNotInstalled && step == CopyTemp)
  }

  /** An oracle under which renaming the backup back never fails. */
  ghost predicate RenameBackWorks(o: Outcomes) {
    forall k :: o(k, File(RenameBakToPasswd))
  }

  /** An oracle under which every file primitive succeeds whenever the file
      system allows it. */
  ghost predicate FileOpsWork(o: Outcomes) {
    forall k: nat, op: FileOp :: o(k, File(op))
  }

  datatype ContactOutcome = Written | FailedAt(step: PasswdStep)

  datatype ContactReply = ContactReply(outcome: ContactOutcome, world: World)

  /** One step on the passwd files. */
  function FileCall(w: World, o: Outcomes, op: FileOp): (r: Step)
    ensures OnlyFilesLater(w, r.world)
    ensures r.world.trace == w.trace + [File(op)]
    ensures r.ok <==> FilePossible(w.state.files, op) && o(|w.trace|, File(op))
    ensures r.world.state.files == if r.ok then FileEffect(w.state.files, op) else w.state.files
  {
    Call(w, o, File(op))
  }

  /** The `fail:` label: rename the backup back when the rule says so (the
      rename's own result is ignored); otherwise leave everything as it is.
      rename replaces an existing /etc/passwd. */
  function Recover(w: World, o: Outcomes, step: PasswdStep, rule: RestoreRule): (r: ContactReply)
    ensures r.outcome == FailedAt(step)
    ensures OnlyFilesLater(w, r.world)
    ensures var f := w.state.files;
            !Restores(rule, step, f.passwd.Some?) ==> r.world.state == w.state
    ensures var f := w.state.files;
            Restores(rule, step, f.passwd.Some?) ==>
              || r.world.state.files == f
              || r.world.state.files == f.(passwd := f.passwdBak, passwdBak := None)
    ensures var f := w.state.files;
            Restores(rule, step, f.passwd.Some?) && f.passwdBak.Some? && RenameBackWorks(o) ==>
              r.world.state.files == f.(passwd := f.passwdBak, passwdBak := None)
  {
    if Restores(rule, step, w.state.files.passwd.Some?) then
      ContactReply(FailedAt(step), FileCall(w, o, RenameBakToPasswd).world)
    else ContactReply(FailedAt(step), w)
  }

  /** The putpwent loop: every record in order, the contact rewritten, until
      the first write that fails. */
  function WriteRecords(w: World, o: Outcomes, db: seq<Account>, value: string): (r: Step)
    requires w.state.files.tempFile.Some?
    ensures OnlyFilesLater(w, r.world)
    ensures r.world.state.files == w.state.files.(tempFile := r.world.state.files.tempFile)
    ensures r.world.state.files.tempFile.Some?
    ensures r.ok ==> r.world.state.files.tempFile == Some(w.state.files.tempFile.value + RewriteGecos(db, value))
    ensures FileOpsWork(o) ==> r.ok
    decreases |db|
  {
    if |db| == 0 then
      assert w.state.files.tempFile.value + RewriteGecos(db, value) == w.state.files.tempFile.value;
      Step(true, w)
    else
      var c := FileCall(w, o, WriteTempRecord(WithContact(db[0], value)));
      if !c.ok then c
      else
        assert c.world.state.files.tempFile == Some(w.state.files.tempFile.value + [WithContact(db[0], value)]);
        var r := WriteRecords(c.world, o, db[1..], value);
        AppendRewritten(w.state.files.tempFile.value, db, value);
        r
  }

  /** Writing the first record and then the rest is writing all of them. */
  lemma AppendRewritten(prefix: seq<Account>, db: seq<Account>, value: string)
    requires |db| > 0
    ensures (prefix + [WithContact(db[0], value)]) + RewriteGecos(db[1..], value) == prefix + RewriteGecos(db, value)
  {
    assert RewriteGecos(db, value) == [WithContact(db[0], value)] + RewriteGecos(db[1..], value);
  }

  /** From the copy step on: /etc/passwd has been created again, so as
      written a failure restores nothing. */
  function CopyAndClean(w: World, o: Outcomes, rule: RestoreRule): (r: ContactReply)
    requires w.state.files.passwd == Some([]) && w.state.files.tempFile.Some?
    ensures OnlyFilesLater(w, r.world)
    ensures var f, f' := w.state.files, r.world.state.files;
            && (r.outcome == Written ==> f' == f.(passwd := f.tempFile, tempFile := None))
            && (r.outcome == FailedAt(CopyTemp) && rule == WhenPasswdAbsent ==> f' == f)
            && (r.outcome == FailedAt(CopyTemp) && rule == WhenNotInstalled ==>
                  f' == f || f' == f.(passwd := f.passwdBak, passwdBak := None))
            && (r.outcome == FailedAt(CopyTemp) && rule == WhenNotInstalled && f.passwdBak.Some? && RenameBackWorks(o) ==>
                  f' == f.(passwd := f.passwdBak, passwdBak := None))
            && (r.outcome == FailedAt(RemoveTempFile) ==> f' == f.(passwd := f.tempFile))
    ensures r.outcome == Written || r.outcome == FailedAt(CopyTemp) || r.outcome == FailedAt(RemoveTempFile)
    ensures FileOpsWork(o) ==> r.outcome == Written
  {
    var cp := FileCall(w, o, CopyTempToPasswd);
    if !cp.ok then Recover(cp.world, o, CopyTemp, rule)
    else
      var rm := FileCall(cp.world, o, RemoveTemp);
      if !rm.ok then Recover(rm.world, o, RemoveTempFile, rule)
      else ContactReply(Written, rm.world)
  }

  /** The database is `db` or, when renaming it back failed, still in the
      backup. */
  predicate KeptOrInBackup(f: Files, db: seq<Account>) {
    f.passwd == Some(db) || (f.passwd.None? && f.passwdBak == Some(db))
  }

  /** With the database moved to the backup and the temporary file open:
      /etc/passwd is created again, then filled. Until it exists, a failure
      renames the backup back. */
  function Recreate(w: World, o: Outcomes, db: seq<Account>, content: seq<Account>, rule: RestoreRule): (r: ContactReply)
    requires w.state.files == Files(None, Some(db), Some(content))
    ensures OnlyFilesLater(w, r.world)
    ensures var f' := r.world.state.files;
            && (r.outcome == Written ==> f' == Files(Some(content), Some(db), None))
            && (r.outcome.FailedAt? && WhilePasswdAbsent(r.outcome.step) ==> KeptOrInBackup(f', db))
            && (r.outcome == FailedAt(CopyTemp) && rule == WhenPasswdAbsent ==>
                  f'.passwd == Some([]) && f'.passwdBak == Some(db))
            && (r.outcome == FailedAt(CopyTemp) && rule == WhenNotInstalled ==>
                  f'.passwd == Some(db) || (f'.passwd == Some([]) && f'.passwdBak == Some(db)))
            && (r.outcome == FailedAt(RemoveTempFile) ==> f'.passwd == Some(content) && f'.passwdBak == Some(db))
    ensures r.outcome.FailedAt? ==>
              WhilePasswdAbsent(r.outcome.step) || r.outcome.step == CopyTemp || r.outcome.step == RemoveTempFile
    ensures RenameBackWorks(o) && r.outcome.FailedAt? && WhilePasswdAbsent(r.outcome.step) ==>
              r.world.state.files.passwd == Some(db)
    ensures RenameBackWorks(o) && rule == WhenNotInstalled && r.outcome == FailedAt(CopyTemp) ==>
              r.world.state.files.passwd == Some(db)
    ensures FileOpsWork(o) ==> r.outcome == Written
  {
    var cr := FileCall(w, o, OpenPasswdCreate);
    if !cr.ok then Recover(cr.world, o, CreatePasswd, rule)
    else CopyAndClean(cr.world, o, rule)
  }

  /** From the backup rename on, with the database moved to the backup: the
      temporary file is opened and inspected and /etc/passwd created again. */
  function Reinstate(w: World, o: Outcomes, db: seq<Account>, content: seq<Account>, rule: RestoreRule): (r: ContactReply)
    requires w.state.files == Files(None, Some(db), Some(content))
    ensures OnlyFilesLater(w, r.world)
    ensures var f' := r.world.state.files;
            && (r.outcome == Written ==> f' == Files(Some(content), Some(db), None))
            && (r.outcome.FailedAt? && WhilePasswdAbsent(r.outcome.step) ==> KeptOrInBackup(f', db))
            && (r.outcome == FailedAt(CopyTemp) && rule == WhenPasswdAbsent ==>
                  f'.passwd == Some([]) && f'.passwdBak == Some(db))
            && (r.outcome == FailedAt(CopyTemp) && rule == WhenNotInstalled ==>
                  f'.passwd == Some(db) || (f'.passwd == Some([]) && f'.passwdBak == Some(db)))
            && (r.outcome == FailedAt(RemoveTempFile) ==> f'.passwd == Some(content) && f'.passwdBak == Some(db))
    ensures r.outcome.FailedAt? ==>
              WhilePasswdAbsent(r.outcome.step) || r.outcome.step == CopyTemp || r.outcome.step == RemoveTempFile
    ensures RenameBackWorks(o) && r.outcome.FailedAt? && WhilePasswdAbsent(r.outcome.step) ==>
              r.world.state.files.passwd == Some(db)
    ensures RenameBackWorks(o) && rule == WhenNotInstalled && r.outcome == FailedAt(CopyTemp) ==>
              r.world.state.files.passwd == Some(db)
    ensures FileOpsWork(o) ==> r.outcome == Written
  {
    var rd := FileCall(w, o, OpenTempRead);
    if !rd.ok then Recover(rd.world, o, OpenTempForRead, rule)
    else
      var st := FileCall(rd.world, o, StatTemp);
      if !st.ok then Recover(st.world, o, StatTempFile, rule)
      else Recreate(st.world, o, db, content, rule)
  }

  /** From the backup rename on, with the records to install (`content`) in the
      temporary file. */
  function Install(w: World, o: Outcomes, db: seq<Account>, content: seq<Account>, rule: RestoreRule): (r: ContactReply)
    requires w.state.files.passwd == Some(db) && w.state.files.tempFile == Some(content)
    ensures OnlyFilesLater(w, r.world)
    ensures var f' := r.world.state.files;
            && (r.outcome == Written ==> f' == Files(Some(content), Some(db), None))
            && (r.outcome == FailedAt(Backup) ==> r.world.state == w.state)
            && (r.outcome.FailedAt? && WhilePasswdAbsent(r.outcome.step) ==> KeptOrInBackup(f', db))
            && (r.outcome == FailedAt(CopyTemp) && rule == WhenPasswdAbsent ==>
                  f'.passwd == Some([]) && f'.passwdBak == Some(db))
            && (r.outcome == FailedAt(CopyTemp) && rule == WhenNotInstalled ==>
                  f'.passwd == Some(db) || (f'.passwd == Some([]) && f'.passwdBak == Some(db)))
            && (r.outcome == FailedAt(RemoveTempFile) ==> f'.passwd == Some(content) && f'.passwdBak == Some(db))
    ensures r.outcome.FailedAt? ==> !BeforeBackup(r.outcome.step) || r.outcome.step == Backup
    ensures RenameBackWorks(o) && r.outcome.FailedAt? && WhilePasswdAbsent(r.outcome.step) ==>
              r.world.state.files.passwd == Some(db)
    ensures RenameBackWorks(o) && rule == WhenNotInstalled && r.outcome == FailedAt(CopyTemp) ==>
              r.world.state.files.passwd == Some(db)
    ensures FileOpsWork(o) ==> r.outcome == Written
  {
    var b := FileCall(w, o, RenamePasswdToBak);
    if !b.ok then Recover(b.world, o, Backup, rule)
    else Reinstate(b.world, o, db, content, rule)
  }

  /** With the temporary file created and the non-empty database `db` in
      /etc/passwd: stream the rewritten records out, then install them. */
  function WriteAndInstall(w: World, o: Outcomes, db: seq<Account>, value: string, rule: RestoreRule): (r: ContactReply)
    requires w.state.files.passwd == Some(db) && w.state.files.tempFile == Some([])
    ensures OnlyFilesLater(w, r.world)
    ensures var f, f', db' := w.state.files, r.world.state.files, RewriteGecos(db, value);
            && (r.outcome == Written ==> f' == Files(Some(db'), Some(db), None))
            && (r.outcome == FailedAt(WriteRecord) ==> f'.passwd == Some(db) && f'.passwdBak == f.passwdBak)
            && (r.outcome == FailedAt(Backup) ==> f'.passwd == Some(db) && f'.passwdBak == f.passwdBak)
            && (r.outcome.FailedAt? && WhilePasswdAbsent(r.outcome.step) ==> KeptOrInBackup(f', db))
            && (r.outcome == FailedAt(CopyTemp) && rule == WhenPasswdAbsent ==>
                  f'.passwd == Some([]) && f'.passwdBak == Some(db))
            && (r.outcome == FailedAt(CopyTemp) ==>
                  f'.passwd == Some(db) || (f'.passwd == Some([]) && f'.passwdBak == Some(db)))
            && (r.outcome == FailedAt(RemoveTempFile) ==> f'.passwd == Some(db') && f'.passwdBak == Some(db))
    ensures r.outcome != FailedAt(OpenTemp) && r.outcome != FailedAt(ReadFirst)
    ensures RenameBackWorks(o) && rule == WhenNotInstalled && r.outcome.FailedAt? &&
            r.outcome.step != RemoveTempFile ==>
              r.world.state.files.passwd == Some(db)
    ensures FileOpsWork(o) ==> r.outcome == Written
  {
    var wr := WriteRecords(w, o, db, value);
    if !wr.ok then Recover(wr.world, o, WriteRecord, rule)
    else
      assert wr.world.state.files.tempFile == Some([] + RewriteGecos(db, value));
      assert [] + RewriteGecos(db, value) == RewriteGecos(db, value);
      Install(wr.world, o, db, RewriteGecos(db, value), rule)
  }

  /** set_contact_info: rewrite the contact account's GECOS to `value`, with
      the given rule for renaming the backup back. */
  function SetContactInfo(w: World, o: Outcomes, value: string, rule: RestoreRule): (r: ContactReply)
    ensures OnlyFilesLater(w, r.world)
    ensures var f, f' := w.state.files, r.world.state.files;
            // success: the rewritten database is installed and the backup kept
            && (r.outcome == Written ==>
                  f.passwd.Some? && f' == Files(Some(RewriteGecos(f.passwd.value, value)), f.passwd, None))
            // a failure before the backup rename leaves the database and its backup alone
            && (r.outcome.FailedAt? && BeforeBackup(r.outcome.step) && f.passwd.Some? ==>
                  f'.passwd == f.passwd && f'.passwdBak == f.passwdBak)
            // a failure while the database is moved away renames the backup back
            && (r.outcome.FailedAt? && WhilePasswdAbsent(r.outcome.step) ==>
                  f.passwd.Some? && KeptOrInBackup(f', f.passwd.value))
            // as written, a failed copy leaves /etc/passwd empty
            && (r.outcome == FailedAt(CopyTemp) && rule == WhenPasswdAbsent ==>
                  f'.passwd == Some([]) && f'.passwdBak == f.passwd)
            // whatever the rule, a failed copy leaves the database or an empty /etc/passwd
            && (r.outcome == FailedAt(CopyTemp) ==>
                  f.passwd.Some? && (f'.passwd == f.passwd || (f'.passwd == Some([]) && f'.passwdBak == f.passwd)))
            && (r.outcome == FailedAt(RemoveTempFile) ==>
                  f.passwd.Some? && f'.passwd == Some(RewriteGecos(f.passwd.value, value)) &&
                  f'.passwdBak == f.passwd)
    // an absent or empty database fails before the database is backed up
    ensures w.state.files.passwd.None? || w.state.files.passwd == Some([]) ==>
              r.outcome == FailedAt(OpenTemp) || r.outcome == FailedAt(ReadFirst)
    // with /etc/passwd absent, the fail path renames a leftover backup into
    // its place
    ensures var f, f' := w.state.files, r.world.state.files;
            f.passwd.None? ==> f'.passwd == f.passwdBak || f' == f.(tempFile := f'.tempFile)
    ensures var f, f' := w.state.files, r.world.state.files;
            f.passwd.None? && f.passwdBak.Some? && RenameBackWorks(o) ==>
              f'.passwd == f.passwdBak && f'.passwdBak.None?
    // under the corrected rule, and when renaming back works, every failure
    // short of removing the temporary file leaves the database as it was
    ensures RenameBackWorks(o) && rule == WhenNotInstalled && r.outcome.FailedAt? &&
            r.outcome.step != RemoveTempFile && w.state.files.passwd.Some? ==>
              r.world.state.files.passwd == w.state.files.passwd
    // when every file primitive succeeds, a non-empty database is rewritten
    ensures FileOpsWork(o) && w.state.files.passwd.Some? && w.state.files.passwd.value != [] ==>
              r.outcome == Written
  {
    var t := FileCall(w, o, CreateTemp);
    if !t.ok then Recover(t.world, o, OpenTemp, rule)
    else if t.world.state.files.passwd.None? || t.world.state.files.passwd.value == [] then
      Recover(t.world, o, ReadFirst, rule)
    else WriteAndInstall(t.world, o, t.world.state.files.passwd.value, value, rule)
  }

  /** The outcomes of a run in which every primitive succeeds. */
  const AllOk: Outcomes := (k: nat, p: Prim) => true

  /** With every call succeeding, set_contact_info writes the contact. */
  lemma SetContactInfoSucceeds(w: World, value: string, rule: RestoreRule)
    requires w.state.files.passwd.Some? && w.state.files.passwd.value != []
    ensures SetContactInfo(w, AllOk, value, rule).outcome == Written
    ensures SetContactInfo(w, AllOk, value, rule).world.state.files.passwd ==
              Some(RewriteGecos(w.state.files.passwd.value, value))
  {
  }

  /** The outcomes of a run in which only sendfile fails. */
  const CopyFails: Outcomes := (k: nat, p: Prim) => p != File(CopyTempToPasswd)

  /** With every write working, the putpwent loop writes every record. */
  lemma {:induction false} WriteRecordsComplete(w: World, o: Outcomes, db: seq<Account>, value: string)
    requires w.state.files.tempFile.Some?
    requires forall k: nat, a: Account :: o(k, File(WriteTempRecord(a)))
    ensures WriteRecords(w, o, db, value).ok
    decreases |db|
  {
    if |db| > 0 {
      var c := FileCall(w, o, WriteTempRecord(WithContact(db[0], value)));
      WriteRecordsComplete(c.world, o, db[1..], value);
    }
  }

  /** The install stages under CopyFails stop at the copy. */
  lemma InstallWhenCopyFails(w: World, db: seq<Account>, content: seq<Account>, rule: RestoreRule)
    requires w.state.files.passwd == Some(db) && w.state.files.tempFile == Some(content)
    ensures var r := Install(w, CopyFails, db, content, rule);
            && r.outcome == FailedAt(CopyTemp)
            && r.world.state.files.passwd == (if rule == WhenPasswdAbsent then Some([]) else Some(db))
  {
    var b := FileCall(w, CopyFails, RenamePasswdToBak);
    var rd := FileCall(b.world, CopyFails, OpenTempRead);
    var st := FileCall(rd.world, CopyFails, StatTemp);
    var cr := FileCall(st.world, CopyFails, OpenPasswdCreate);
    assert cr.ok && cr.world.state.files == Files(Some([]), Some(db), Some(content));
    assert !FileCall(cr.world, CopyFails, CopyTempToPasswd).ok;
  }

  /** As written, a failed sendfile leaves /etc/passwd empty with the
      database in the backup; under the corrected rule the same run renames
      the backup back and the database is as it was. */
  lemma CopyFailureEmptiesPasswd(w: World, value: string, rule: RestoreRule)
    requires w.state.files.passwd.Some? && w.state.files.passwd.value != []
    ensures var r := SetContactInfo(w, CopyFails, value, rule);
            && r.outcome == FailedAt(CopyTemp)
            && r.world.state.files.passwd == (if rule == WhenPasswdAbsent then Some([]) else w.state.files.passwd)
  {
    var db := w.state.files.passwd.value;
    var t := FileCall(w, CopyFails, CreateTemp);
    WriteRecordsComplete(t.world, CopyFails, db, value);
    var wr := WriteRecords(t.world, CopyFails, db, value);
    assert wr.world.state.files.tempFile == Some([] + RewriteGecos(db, value));
    assert [] + RewriteGecos(db, value) == RewriteGecos(db, value);
    InstallWhenCopyFails(wr.world, db, RewriteGecos(db, value), rule);
  }
}

=== FILE: rpc.dfy ===
/** system_rpc_cb (src/general.c:987-1037): the three operations of the
    ietf-system module. set-current-datetime sets the clock and records the
    new time in the operational datastore; system-restart and
    system-shutdown flush the disks and hand over to the shutdown command,
    whose result is not looked at. */
module Rpc {
  import opened Os
  import opened ChangeCallback

  const SetCurrentDatetimePath: string := "/ietf-system:set-current-datetime"
  const RestartPath: string := "/ietf-system:system-restart"
  const ShutdownPath: string := "/ietf-system:system-shutdown"
  const CurrentDatetimePath: string := "/ietf-system:system-state/clock/current-datetime"

  const RestartCommand: string := "shutdown -r"
  const PowerOffCommand: string := "shutdown -P"

  /** set-current-datetime with its one input value: set the clock, store the
      value, apply; the first failure ends the operation. */
  function SetCurrentDatetime(w: World, o: Outcomes, datetime: string): (r: Reply)
    ensures SameStateLater(w, r.world)
    ensures var n, t := |w.trace|, w.trace + [SetDatetime(datetime)];
            && r.world.trace <= t + [Repo(SetItem(CurrentDatetimePath, datetime))] + [Repo(ApplyChanges)]
            && t <= r.world.trace
            && (r.status == Ok <==>
                  && o(n, SetDatetime(datetime))
                  && o(n + 1, Repo(SetItem(CurrentDatetimePath, datetime)))
                  && o(n + 2, Repo(ApplyChanges)))
            && (r.status == Ok ==> |r.world.trace| == n + 3)
            // the first failure ends the operation
            && (!o(n, SetDatetime(datetime)) ==> r.world.trace == t)
            && (o(n, SetDatetime(datetime)) && !o(n + 1, Repo(SetItem(CurrentDatetimePath, datetime))) ==>
                  r.world.trace == t + [Repo(SetItem(CurrentDatetimePath, datetime))])
  {
    var d := Call(w, o, SetDatetime(datetime));
    if !d.ok then Reply(CallbackFailed, d.world)
    else
      var s := Call(d.world, o, Repo(SetItem(CurrentDatetimePath, datetime)));
      if !s.ok then Reply(CallbackFailed, s.world)
      else
        var a := Call(s.world, o, Repo(ApplyChanges));
        Reply(if a.ok then Ok else CallbackFailed, a.world)
  }

  /** sync() then system(command), whatever either returns. */
  function SyncAndRun(w: World, o: Outcomes, command: string): (r: World)
    ensures SameStateLater(w, r)
    ensures r.trace == w.trace + [Sync] + [Shell(command)]
  {
    Call(Call(w, o, Sync).world, o, Shell(command)).world
  }

  /** system_rpc_cb: dispatch on the operation path. Restart and shutdown
      report success whatever the outcomes; an unknown path or a
      set-current-datetime without exactly one input value fails without
      doing anything. */
  function RpcCallback(w: World, o: Outcomes, opPath: string, input: seq<string>): (r: Reply)
    ensures SameStateLater(w, r.world)
    ensures opPath == SetCurrentDatetimePath && |input| != 1 ==> r == Reply(CallbackFailed, w)
    ensures opPath == SetCurrentDatetimePath && |input| == 1 ==> r == SetCurrentDatetime(w, o, input[0])
    ensures opPath == RestartPath ==>
              r == Reply(Ok, w.(trace := w.trace + [Sync] + [Shell(RestartCommand)]))
    ensures opPath == ShutdownPath ==>
              r == Reply(Ok, w.(trace := w.trace + [Sync] + [Shell(PowerOffCommand)]))
    ensures opPath !in {SetCurrentDatetimePath, RestartPath, ShutdownPath} ==> r == Reply(CallbackFailed, w)
  {
    if opPath == SetCurrentDatetimePath then
      if |input| != 1 then Reply(CallbackFailed, w)
      else SetCurrentDatetime(w, o, input[0])
    else if opPath == RestartPath then Reply(Ok, SyncAndRun(w, o, RestartCommand))
    else if opPath == ShutdownPath then Reply(Ok, SyncAndRun(w, o, PowerOffCommand))
    else Reply(CallbackFailed, w)
  }
}

=== FILE: timezone.dfy ===
/** The clock's timezone-name leaf (src/general.c:760-817): the zone is the
    target of the /etc/localtime symbolic link, a file under the zoneinfo
    directory. Setting it replaces the link; reading it back takes the link
    target apart again. */
module Timezone {
  import opened Wrappers
  import opened CStrings
  import opened Os

  const ZoneInfoDir: string := "/usr/share/zoneinfo/"
  const ZoneDirLen: nat := 20
  /** Area and location names have at most 14 characters, and an area can
      have a sub-area. */
  const TimezoneNameLen: nat := 14 * 3
  /** get_timezone_name reads the link into a TIMEZONE_NAME_LEN buffer,
      keeping one byte for the terminating NUL. */
  const ReadlinkBound: nat := TimezoneNameLen - 1

  /** The zone file set_timezone links to: the directory followed by at most
      TIMEZONE_NAME_LEN characters of the name. */
  function ZonePath(name: string): (r: string)
    ensures ZoneInfoDir <= r
    ensures r[ZoneDirLen..] == Take(name, TimezoneNameLen)
  {
    Take(ZoneInfoDir, ZoneDirLen) + Take(name, TimezoneNameLen)
  }

  /** access("/etc/localtime", F_OK) follows the link: it finds the file only
      when the link exists and its target does. */
  predicate LocaltimeFound(s: State) {
    s.localtime.Some? && s.localtime.value in s.existing
  }

  /** One call on the /etc/localtime link. */
  function LinkCall(w: World, o: Outcomes, op: LinkOp): (r: Step)
    ensures OnlyLinkLater(w, r.world)
    ensures r.world.trace == w.trace + [Link(op)]
    ensures r.ok <==> LinkPossible(w.state.localtime, op) && o(|w.trace|, Link(op))
    ensures r.world.state.localtime == if r.ok then LinkEffect(op) else w.state.localtime
  {
    Call(w, o, Link(op))
  }

  /** set_timezone: fail when the zone file does not exist; unlink
      /etc/localtime when access finds it; then create the link. A link
      whose target is missing is not found, so it is not removed and the
      symlink fails. */
  function SetTimezone(w: World, o: Outcomes, name: string): (r: Step)
    ensures OnlyLinkLater(w, r.world)
    ensures ZonePath(name) !in w.state.existing ==> r == Step(false, w)
    ensures var n, p := |w.trace|, ZonePath(name);
            r.ok <==>
              && p in w.state.existing
              && if LocaltimeFound(w.state)
                 then o(n, Link(UnlinkLocaltime)) && o(n + 1, Link(SymlinkLocaltime(p)))
                 else w.state.localtime.None? && o(n, Link(SymlinkLocaltime(p)))
    ensures r.ok ==> r.world.state.localtime == Some(ZonePath(name))
    ensures !r.ok ==> r.world.state.localtime in {w.state.localtime, None}
    // a link whose target has gone is not found, so it is not removed and
    // blocks the new link
    ensures w.state.localtime.Some? && !LocaltimeFound(w.state) ==> !r.ok && r.world.state == w.state
  {
    var path := ZonePath(name);
    if path !in w.state.existing then Step(false, w)
    else if LocaltimeFound(w.state) then
      var u := LinkCall(w, o, UnlinkLocaltime);
      if !u.ok then u
      else LinkCall(u.world, o, SymlinkLocaltime(path))
    else LinkCall(w, o, SymlinkLocaltime(path))
  }

  /** Deleting the timezone-name leaf: the result of access is only logged,
      the unlink is attempted regardless and its failure is the result. */
  function DeleteTimezone(w: World, o: Outcomes): (r: Step)
    ensures OnlyLinkLater(w, r.world)
    ensures r.world.trace == w.trace + [Link(UnlinkLocaltime)]
    ensures r.ok <==> w.state.localtime.Some? && o(|w.trace|, Link(UnlinkLocaltime))
    ensures r.world.state.localtime == if r.ok then None else w.state.localtime
  {
    LinkCall(w, o, UnlinkLocaltime)
  }

  /** The name read back from a link target whose first `bound` characters
      are read: the part after the zoneinfo directory, when the target
      starts with it. */
  function NameFromLink(s: State, bound: nat): (r: Option<string>)
    ensures r.Some? <==> s.localtime.Some? && ZoneInfoDir <= Take(s.localtime.value, bound)
    ensures r.Some? ==> ZoneInfoDir + r.value == Take(s.localtime.value, bound)
  {
    if s.localtime.None? then None
    else
      var buf := Take(s.localtime.value, bound);
      if ZoneInfoDir <= buf then
        assert ZoneInfoDir + buf[ZoneDirLen..] == buf;
        Some(buf[ZoneDirLen..])
      else None
  }

  /** get_timezone_name as written: readlink into a TIMEZONE_NAME_LEN buffer
      (at most 41 characters), a prefix check against the zoneinfo
      directory, and the rest copied out. */
  function GetTimezoneName(s: State): (r: Option<string>)
    ensures r.Some? <==> s.localtime.Some? && ZoneInfoDir <= Take(s.localtime.value, ReadlinkBound)
    ensures r.Some? ==> |r.value| <= ReadlinkBound - ZoneDirLen
    ensures r.Some? ==> ZoneInfoDir + r.value <= s.localtime.value
    ensures r.Some? ==> ZoneInfoDir + r.value == Take(s.localtime.value, ReadlinkBound)
  {
    NameFromLink(s, ReadlinkBound)
  }

  /** get_timezone_name with room for everything set_timezone can write: the
      directory and TIMEZONE_NAME_LEN characters of the name. */
  function GetTimezoneNameFixed(s: State): (r: Option<string>)
    ensures r.Some? <==> s.localtime.Some? && ZoneInfoDir <= Take(s.localtime.value, ZoneDirLen + TimezoneNameLen)
    ensures r.Some? ==> |r.value| <= TimezoneNameLen
    ensures r.Some? ==> ZoneInfoDir + r.value <= s.localtime.value
    ensures r.Some? ==> ZoneInfoDir + r.value == Take(s.localtime.value, ZoneDirLen + TimezoneNameLen)
  {
    NameFromLink(s, ZoneDirLen + TimezoneNameLen)
  }

  /** What set_timezone links to reads back as the name cut to `bound` minus
      the directory length. */
  lemma ReadBackOfZonePath(s: State, name: string, bound: nat)
    requires s.localtime == Some(ZonePath(name))
    requires ZoneDirLen <= bound <= ZoneDirLen + TimezoneNameLen
    ensures NameFromLink(s, bound) == Some(Take(name, bound - ZoneDirLen))
  {
    var p := ZonePath(name);
    assert Take(p, bound) == ZoneInfoDir + Take(name, bound - ZoneDirLen);
  }

  /** Round trip as written: a zone set successfully reads back unchanged
      only when its name has at most 21 characters. */
  lemma SetThenGet(w: World, o: Outcomes, name: string)
    requires SetTimezone(w, o, name).ok
    ensures GetTimezoneName(SetTimezone(w, o, name).world.state) == Some(Take(name, ReadlinkBound - ZoneDirLen))
    ensures |name| <= ReadlinkBound - ZoneDirLen ==>
              GetTimezoneName(SetTimezone(w, o, name).world.state) == Some(name)
  {
    ReadBackOfZonePath(SetTimezone(w, o, name).world.state, name, ReadlinkBound);
  }

  /** A real zone name longer than 21 characters comes back cut short. */
  lemma LongZoneNameIsTruncated(w: World, o: Outcomes)
    requires SetTimezone(w, o, "America/Argentina/Buenos_Aires").ok
    ensures GetTimezoneName(SetTimezone(w, o, "America/Argentina/Buenos_Aires").world.state)
              == Some("America/Argentina/Bue")
    ensures GetTimezoneName(SetTimezone(w, o, "America/Argentina/Buenos_Aires").world.state)
              != Some("America/Argentina/Buenos_Aires")
  {
    SetThenGet(w, o, "America/Argentina/Buenos_Aires");
    assert Take("America/Argentina/Buenos_Aires", ReadlinkBound - ZoneDirLen) == "America/Argentina/Bue";
  }

  /** The corrected read-back returns every name set_timezone accepts
      whole, and longer names as set_timezone cut them. */
  lemma SetThenGetFixed(w: World, o: Outcomes, name: string)
    requires SetTimezone(w, o, name).ok
    ensures GetTimezoneNameFixed(SetTimezone(w, o, name).world.state) == Some(Take(name, TimezoneNameLen))
    ensures |name| <= TimezoneNameLen ==> GetTimezoneNameFixed(SetTimezone(w, o, name).world.state) == Some(name)
  {
    ReadBackOfZonePath(SetTimezone(w, o, name).world.state, name, ZoneDirLen + TimezoneNameLen);
  }
}

=== FILE: wrappers.dfy ===
/** Values that may be missing: the model's counterpart of a C pointer that
    may be NULL. */
module Wrappers {

  datatype Option<T> = None | Some(value: T) {

    /** What a NULL check with a fallback yields: the value when present,
        `fallback` otherwise. */
    function ValueOr(fallback: T): (r: T)
      ensures Some? ==> r == value
      ensures None? ==> r == fallback
    {
      if Some? then value else fallback
    }
  }
}

=== FILE: xpaths.dfy ===
/** The ietf-system data paths the plugin recognises, how set_config_value
    classifies a changed leaf's path, and the path surgery done by
    system_xpath_get and by the sysrepo helpers set_ntp calls. */
module XPaths {
  import opened Wrappers
  import opened CStrings

  const SystemPath: string := "/ietf-system:system"
  const ContactPath: string := SystemPath + "/contact"
  const HostnamePath: string := SystemPath + "/hostname"
  const LocationPath: string := SystemPath + "/location"
  const NtpPath: string := SystemPath + "/ntp"
  const ClockPath: string := SystemPath + "/clock"
  const TimezoneNamePath: string := ClockPath + "/timezone-name"
  const TimezoneOffsetPath: string := ClockPath + "/timezone-utc-offset"
  const NtpEnabledPath: string := NtpPath + "/enabled"
  const NtpServerPath: string := NtpPath + "/server"

  /** The applier set_config_value hands a path to. */
  datatype Route =
    | HostnameLeaf
    | ContactLeaf
    | LocationLeaf
    | TimezoneNameLeaf
    | TimezoneOffsetLeaf
    | NtpSubtree
    | Unrouted

  /** The branch set_config_value takes: exact matches for the hostname,
      contact, location and the two clock leaves, a prefix match for the NTP
      subtree, nothing for any other path. */
  function Classify(xpath: string): (r: Route)
    ensures r == HostnameLeaf <==> xpath == HostnamePath
    ensures r == ContactLeaf <==> xpath == ContactPath
    ensures r == LocationLeaf <==> xpath == LocationPath
    ensures r == TimezoneNameLeaf <==> xpath == TimezoneNamePath
    ensures r == TimezoneOffsetLeaf <==> xpath == TimezoneOffsetPath
    ensures r == NtpSubtree <==> NtpPath <= xpath
  {
    LeafPathsOutsideNtp();
    if xpath == HostnamePath then HostnameLeaf
    else if xpath == ContactPath then ContactLeaf
    else if xpath == LocationPath then LocationLeaf
    else if xpath == TimezoneNamePath then TimezoneNameLeaf
    else if xpath == TimezoneOffsetPath then TimezoneOffsetLeaf
    else if NtpPath <= xpath then NtpSubtree
    else Unrouted
  }

  /** None of the exactly matched leaves lies in the NTP subtree, and they
      are pairwise distinct. */
  lemma LeafPathsOutsideNtp()
    ensures !(NtpPath <= HostnamePath) && !(NtpPath <= ContactPath)
    ensures !(NtpPath <= LocationPath) && !(NtpPath <= TimezoneNamePath)
    ensures !(NtpPath <= TimezoneOffsetPath)
    ensures HostnamePath != LocationPath
  {
    assert NtpPath[20] == 'n';
    assert HostnamePath[20] == 'h' && ContactPath[20] == 'c' && LocationPath[20] == 'l';
    assert TimezoneNamePath[20] == 'c' && TimezoneOffsetPath[20] == 'c';
  }

  /** system_xpath_get for a leaf-list entry: the instance path cut just
      before its last '[' (the value predicate), or unchanged when it has
      none. */
  function TrimLeafList(path: string): (r: string)
    ensures r <= path
    ensures '[' !in path ==> r == path
    ensures '[' in path ==> |r| < |path| && path[|r|] == '[' && '[' !in path[|r| + 1..]
  {
    match LastIndexOf(path, '[')
    case None => path
    case Some(i) => path[..i]
  }

  /** Cutting the value predicate off a leaf-list instance path gives back
      the leaf-list's own path. */
  lemma TrimLeafListOfInstance(path: string, pred: string)
    requires '[' !in pred
    ensures TrimLeafList(path + "[" + pred) == path
  {
    var s := path + "[" + pred;
    assert s[|path|] == '[';
    assert s[|path| + 1..] == pred;
    assert '[' in s;
    var r := TrimLeafList(s);
    assert r == s[..|path|] == path;
  }

  /** sr_xpath_node_name: the name of the last node of a path, everything
      after its last '/'. */
  function NodeName(xpath: string): (r: string)
    ensures '/' !in r
    ensures '/' !in xpath ==> r == xpath
    ensures '/' in xpath ==> |r| < |xpath| && xpath[|xpath| - |r| - 1] == '/' && xpath[|xpath| - |r|..] == r
  {
    match LastIndexOf(xpath, '/')
    case None => xpath
    case Some(i) => xpath[i + 1..]
  }

  /** The opening of the key predicate sysrepo reads the server name from. */
  const ServerKeyOpen: string := "[name='"

  /** sr_xpath_key_value(xpath, "server", "name"), on paths below the NTP
      server list: the quoted name right after the list node, or NULL when
      the path carries no such key. */
  function ServerKey(xpath: string): (r: Option<string>)
    ensures r.Some? ==> '\'' !in r.value
    ensures r.Some? ==> NtpServerPath + ServerKeyOpen + r.value + "'" <= xpath
    ensures var head := NtpServerPath + ServerKeyOpen;
            r.Some? <==> head <= xpath && '\'' in xpath[|head|..]
  {
    var head := NtpServerPath + ServerKeyOpen;
    if !(head <= xpath) then None
    else
      var rest := xpath[|head|..];
      match IndexOf(rest, '\'')
      case None => None
      case Some(j) =>
        assert xpath[..|head| + j + 1] == head + rest[..j] + "'";
        Some(rest[..j])
  }

  /** The nodes between a server entry and its leaf `leaf`: the address and
      port sit in the entry's `udp` container. */
  function ServerLeafParent(leaf: string): string {
    if leaf == "address" || leaf == "port" then "udp/" else ""
  }

  /** The path libyang gives the NTP server entry keyed `name`. */
  function ServerEntryPath(name: string): string {
    NtpServerPath + ServerKeyOpen + name + "']"
  }

  /** The path libyang gives leaf `leaf` of the NTP server keyed `name`. */
  function ServerLeafPath(name: string, leaf: string): string {
    ServerEntryPath(name) + "/" + ServerLeafParent(leaf) + leaf
  }

  /** The key of a path below a server entry is the entry's name. */
  lemma KeyOfServerPath(name: string, tail: string)
    requires '\'' !in name
    ensures ServerKey(ServerEntryPath(name) + tail) == Some(name)
  {
    var head := NtpServerPath + ServerKeyOpen;
    var p := ServerEntryPath(name) + tail;
    assert p == head + (name + "']" + tail);
    var rest := p[|head|..];
    assert rest == name + "']" + tail;
    assert rest[|name|] == '\'';
    assert rest[..|name|] == name;
  }

  /** The node name of a path ending in "/" and a slash-free leaf is the leaf. */
  lemma NodeNameOfLeaf(prefix: string, leaf: string)
    requires '/' !in leaf
    ensures NodeName(prefix + "/" + leaf) == leaf
  {
    var p := prefix + "/" + leaf;
    assert p[|prefix|] == '/';
    assert p[|prefix| + 1..] == leaf;
  }

  /** The key of a server leaf path is the server's name. */
  lemma KeyOfServerLeafPath(name: string, leaf: string)
    requires '\'' !in name
    ensures ServerKey(ServerLeafPath(name, leaf)) == Some(name)
  {
    var mid := ServerLeafParent(leaf);
    assert ServerLeafPath(name, leaf) == ServerEntryPath(name) + ("/" + mid + leaf);
    KeyOfServerPath(name, "/" + mid + leaf);
  }

  /** The node name of a server leaf path is the leaf. */
  lemma NodeNameOfServerLeafPath(name: string, leaf: string)
    requires '/' !in leaf
    ensures NodeName(ServerLeafPath(name, leaf)) == leaf
  {
    var entry := ServerEntryPath(name);
    var prefix := if ServerLeafParent(leaf) == "" then entry else entry + "/udp";
    assert ServerLeafPath(name, leaf) == prefix + "/" + leaf;
    NodeNameOfLeaf(prefix, leaf);
  }

  /** A server leaf path lies below the server list. */
  lemma ServerLeafPathBelowServerList(name: string, leaf: string)
    ensures NtpServerPath <= ServerLeafPath(name, leaf)
    ensures Classify(ServerLeafPath(name, leaf)) == NtpSubtree
  {
  }

  /** Building a server leaf path and taking it apart again recovers the key
      and the leaf name, for names without a quote and leaf names without a
      slash. */
  lemma ServerLeafPathRoundTrip(name: string, leaf: string)
    requires '\'' !in name && '/' !in leaf
    ensures ServerKey(ServerLeafPath(name, leaf)) == Some(name)
    ensures NodeName(ServerLeafPath(name, leaf)) == leaf
    ensures NtpServerPath <= ServerLeafPath(name, leaf)
    ensures Classify(ServerLeafPath(name, leaf)) == NtpSubtree
  {
    KeyOfServerLeafPath(name, leaf);
    NodeNameOfServerLeafPath(name, leaf);
    ServerLeafPathBelowServerList(name, leaf);
  }
}
